=== FILE: README.md ===
# Cloud Quiz Champion — a verified model of the quiz core

Cloud Quiz Champion is a single-page quiz app built with React:

- A participant registers with a name and an email.
- They answer ten multiple-choice questions about cloud computing. Each question has a 15-second countdown.
- They see their score, a percentage, a message and an answer review.
- Their attempt goes to a shared leaderboard, ranked by score and then by time.
- An admin dashboard lists every attempt. It computes the average score and the top scorer, and exports the attempts as CSV.

This project models that core in Dafny and proves what the code promises.

| module | file | models |
|---|---|---|
| `Wrappers` | `wrappers.dfy` | `Option`, and `Reply`, which is what a network call resolves with (`Returns(v)`) or `Fails` when it throws |
| `Text` | `text.dfy` | first index of a character |
| `Decimal` | `decimal.dfy` | `String(n)` for integers, and reading a numeral back |
| `Questions` | `questions.dfy` | the question record, the ten-question bank, the option letters |
| `Records` | `records.dfy` | the stored attempt (`QuizParticipant`) and the leaderboard order "higher score, then shorter time" |
| `TimeFormat` | `time_format.dfy` | `formatTime`, which is written out three times in the source, and a reader that inverts it |
| `Session` | `session.dfy` | the page in `Index.tsx`: the screens, the answers, the score and the final submission, as a class whose methods are the page's handlers |
| `QuizScreen` | `quiz_screen.dfy` | the question screen's countdown, its answer lock and its emitted answers, as a class whose methods are the effects, the timer ticks and the click handlers |
| `Registration` | `registration.dfy` | `trim`, `toLowerCase`, the email pattern, `validate`, and the form as a class |
| `ResultsPage` | `results.dfy` | the percentage, the message tier, the review cards and their tags, the celebration |
| `Leaderboard` | `leaderboard.dfy` | ranks, icons, backgrounds, and the "Winner" and "You" badges |
| `AdminDashboard` | `admin.dfy` | the average score, the top scorer (a stable sort), the CSV export, and a CSV reader that inverts it |

Facts about the environment become parameters:

- The browser clock (`Date.now()`) is `nowMs`.
- Each backend reply is a `Reply` value.
- `Date.prototype.toISOString` is a function `toIso`.
- A one-second timer firing is a call of `QuestionTimer.Tick`.

JavaScript's arithmetic is written out where it differs from Dafny's:

- `%` truncates toward zero (`TimeFormat.JsRem`).
- `Math.round` rounds halves up (`Session.ElapsedSeconds`, `ResultsPage.Pct`).

## Model

| member | source | states |
|---|---|---|
| Questions.BankShape | src/data/questions.ts:1-108 | the bank holds ten questions, and each has exactly four options (one per letter A–D) and a key that indexes one of them |
| Questions.BankKey | src/data/questions.ts:7-108 | the answer key, question by question, is B B B C C A A B B C (indices 1 1 1 2 2 0 0 1 1 2) |
| Decimal.NatToString | src/components/quiz/AdminDashboard.tsx:13 | `String(n)` of a natural number is a non-empty run of digits with no leading zero |
| Decimal.IntToString | src/components/quiz/AdminDashboard.tsx:13 | `String(i)` is a numeral that reads back as `i`, after a `-` exactly when `i` is negative |
| Decimal.ParseNatToString | src/components/quiz/AdminDashboard.tsx:13 | reading back the numeral printed for `n` gives `n` |
| TimeFormat.JsRem | src/components/quiz/AdminDashboard.tsx:12 | JavaScript's `%`, the remainder of truncated division: it differs from the dividend by a multiple of the divisor, is smaller than the divisor in magnitude, and has the sign of the dividend (never negative for a non-negative dividend) |
| TimeFormat.FormatTimeSplit | src/components/quiz/ResultsPage.tsx:19-23 | for a duration `n >= 0` the printed parts are `n / 60` and `n % 60`; the minutes part appears exactly when `n >= 60` |
| TimeFormat.ReadFormatTime | src/components/quiz/LeaderboardPage.tsx:12-16 | reading a printed duration back recovers the number of seconds |
| TimeFormat.FormatTimeInjective | src/components/quiz/AdminDashboard.tsx:10-14 | two different non-negative durations never print the same text |
| QuizScreen.BandThresholds | src/components/quiz/QuizScreen.tsx:58-78 | the timer colour is primary above 10 s, amber from 6 to 10 s and red at 5 s or less; it pulses exactly in the red band |
| QuizScreen.QuestionTimer.constructor | src/components/quiz/QuizScreen.tsx:17-42 | mounting starts a full 15-second countdown, with no selection, unlocked, a tick scheduled and no answer emitted |
| QuizScreen.QuestionTimer.EnterQuestion | src/components/quiz/QuizScreen.tsx:25-30 | a new question restarts the countdown, clears the selection, unlocks, and emits nothing (corrected behaviour; see Findings) |
| QuizScreen.QuestionTimer.EnterQuestionAsWritten | src/components/quiz/QuizScreen.tsx:25-42 | as the code runs it: a new question following one whose countdown stands at 0 (after a timeout, or after a tick still pending from a late confirm) is locked at once and emits `null`; otherwise it is freshly entered |
| QuizScreen.QuestionTimer.Tick | src/components/quiz/QuizScreen.tsx:32-42 | a pending tick takes one second off; then a locked question stops, reaching 0 locks the question and emits `null` once, and otherwise the next tick is scheduled; countdown 0..15, at most one answer per question |
| QuizScreen.QuestionTimer.HandleOptionClick | src/components/quiz/QuizScreen.tsx:44-47 | on an unlocked question the latest click becomes the selection; on a locked one nothing changes |
| QuizScreen.QuestionTimer.HandleSubmit | src/components/quiz/QuizScreen.tsx:49-54 | the first submission locks the question and emits its value; any later one changes nothing |
| QuizScreen.QuestionTimer.Confirm | src/components/quiz/QuizScreen.tsx:163-166 | the confirm button, shown only while an option is selected and the question is unlocked, emits that option, an index in 0..3; the question, the countdown, the selection and the pending tick are left as they were |
| QuizScreen.TimeoutLocksNextQuestion | src/components/quiz/QuizScreen.tsx:25-42 | when question 0 runs out and question 1 is entered as written, question 1 is locked with a full countdown and has already emitted `null` |
| QuizScreen.TimeoutThenFreshQuestion | src/components/quiz/QuizScreen.tsx:25-42 | the same run with the corrected reset leaves question 1 unlocked, with nothing emitted |
| QuizScreen.LateConfirmLocksNextQuestion | src/components/quiz/QuizScreen.tsx:25-54 | when option 1 of question 0 is confirmed with one second showing and the pending tick fires before the answer is sent, question 0 records that option, but the tick runs the countdown to 0, and question 1 entered as written is locked and records `null` |
| QuizScreen.LateConfirmThenFreshQuestion | src/components/quiz/QuizScreen.tsx:25-54 | the same run with the corrected reset leaves question 1 unlocked, with nothing emitted |
| Session.ResultsOnlyAfterQuiz | src/pages/Index.tsx:26-131 | on any sequence of screens the page's handlers allow, the results screen comes only after the quiz screen |
| Session.CountCorrect | src/pages/Index.tsx:37-42 | the score never exceeds the number of answers |
| Session.CountAppend | src/pages/Index.tsx:37-42 | recording one more answer adds 1 to the score exactly when it equals that question's key; a `null` never counts |
| Session.CountIsCorrectPositions | src/pages/Index.tsx:37-42 | the running score is the number of positions whose answer is that question's key |
| Session.AllCorrectScoresFull | src/pages/Index.tsx:37-42 | if every answer is correct, the score equals the number of answers |
| Session.FullScoreAllCorrect | src/pages/Index.tsx:37-42 | if the score equals the number of answers, every answer is correct (the converse of `AllCorrectScoresFull`) |
| Session.PerfectRun | src/data/questions.ts:7-108 | answering with the key scores 10 out of 10 |
| Session.NineRightThenTimeout | src/pages/Index.tsx:36-42 | nine correct answers followed by a timeout (`null`) score 9 |
| Session.DecodeEncode | src/pages/Index.tsx:53 | stored answers map `null` to -1 and keep an option index; mapping -1 back gives the original answers |
| Session.ElapsedSeconds | src/pages/Index.tsx:45 | the completion time is the nearest whole second to the elapsed milliseconds, with halves rounded up |
| Session.Session.constructor | src/pages/Index.tsx:15-24 | the page starts on the landing screen with empty names, no answers, score 0, no submitted id and no badge |
| Session.Session.Start | src/pages/Index.tsx:90 | landing → register; nothing else changes |
| Session.Session.OpenAdmin | src/pages/Index.tsx:84 | landing → admin; nothing else changes |
| Session.Session.CloseAdmin | src/pages/Index.tsx:131 | admin → landing; nothing else changes |
| Session.Session.HandleRegister | src/pages/Index.tsx:26-34 | stores the name and email, clears the answers and score, starts the clock and opens the quiz; clears the top-scorer flag (corrected behaviour; see Findings); the previous attempt's time and id are kept |
| Session.Session.HandleRegisterAsWritten | src/pages/Index.tsx:26-34 | as the code runs it: the same, except that the top-scorer flag keeps its previous value |
| Session.StaleBannerAfterRetake | src/pages/Index.tsx:23-70 | a participant whose earlier attempt led the board retakes the quiz; the retake does not lead the board read afterwards, yet as written its results still carry the top-scorer flag |
| Session.NoBannerAfterRetake | src/pages/Index.tsx:23-70 | the same retake with the corrected registration ends without the flag |
| Session.Session.HandleAnswer | src/pages/Index.tsx:36-74 | appends the answer and keeps the score equal to the count of correct answers; before the last question it advances; on the last one it submits the attempt and shows the results, whether or not the backend calls fail |
| Session.Session.Submit | src/pages/Index.tsx:44-69 | records the rounded elapsed time; sends name, email, encoded answers, score, 10 and the time; keeps a returned id; raises the top-scorer flag exactly when the leaderboard read afterwards starts with that id; a failing call leaves the later fields untouched |
| Session.Session.HandleRetake | src/pages/Index.tsx:76-78 | results → register; nothing else changes |
| Session.Session.ViewLeaderboard | src/pages/Index.tsx:114 | results → leaderboard; nothing else changes |
| Session.Session.BackToResults | src/pages/Index.tsx:124 | leaderboard → results; nothing else changes |
| Registration.Trim | src/components/quiz/RegistrationForm.tsx:18-20 | `trim()` is empty exactly for a blank string; otherwise it neither starts nor ends with whitespace |
| Registration.TrimSlice | src/components/quiz/RegistrationForm.tsx:18-20 | `trim()` is the slice that starts after the leading whitespace and is followed only by whitespace |
| Registration.TrimIdempotent | src/components/quiz/RegistrationForm.tsx:32 | trimming an already trimmed value changes nothing |
| Registration.ToLower | src/components/quiz/RegistrationForm.tsx:32 | `toLowerCase()` keeps the length and lower-cases each character on its own |
| Registration.IsEmailMatchesPattern | src/components/quiz/RegistrationForm.tsx:21 | the executable email test accepts exactly the strings `^[^\s@]+@[^\s@]+\.[^\s@]+$` matches |
| Registration.PatternHasNoOuterSpace | src/components/quiz/RegistrationForm.tsx:21 | a string the pattern accepts has no whitespace at either end, so trimming it changes nothing |
| Registration.LowerKeepsPattern | src/components/quiz/RegistrationForm.tsx:21-32 | lower-casing an accepted email keeps it accepted |
| Registration.Validate | src/components/quiz/RegistrationForm.tsx:16-23 | the name error is "required" exactly when the name is blank, "too short" exactly when it trims to 1 character, and absent exactly at 2 or more; the email error is "required" exactly when the email is blank, "invalid" exactly when it is not blank and fails the pattern, and absent exactly when the pattern matches |
| Registration.ShortNameExample | src/components/quiz/RegistrationForm.tsx:19 | "A" is too short |
| Registration.TwoLetterNameExample | src/components/quiz/RegistrationForm.tsx:19 | "Al" is accepted |
| Registration.BlankFieldsExample | src/components/quiz/RegistrationForm.tsx:16-23 | blank fields get both "required" messages together |
| Registration.EmailExamples | src/components/quiz/RegistrationForm.tsx:20-21 | "foo" is invalid, and "foo@bar.com" is valid |
| Registration.LeadingSpaceEmailExample | src/components/quiz/RegistrationForm.tsx:21 | " foo@bar.com" is invalid, because the pattern is tested on the untrimmed value |
| Registration.AcceptedValues | src/components/quiz/RegistrationForm.tsx:25-32 | once validation passes, the name handed on trims to 2 or more characters, and the email handed on is the typed value lower-cased and still matches the pattern |
| Registration.RegistrationForm.constructor | src/components/quiz/RegistrationForm.tsx:12-14 | the form starts with empty inputs and no errors |
| Registration.RegistrationForm.EditName | src/components/quiz/RegistrationForm.tsx:52 | typing in the name sets it and clears only the name error |
| Registration.RegistrationForm.EditEmail | src/components/quiz/RegistrationForm.tsx:69 | typing in the email sets it and clears only the email error |
| Registration.RegistrationForm.HandleSubmit | src/components/quiz/RegistrationForm.tsx:25-33 | registers exactly when validation finds no error, handing on the trimmed name and the trimmed, lower-cased email; otherwise it shows every error and registers nothing |
| ResultsPage.Pct | src/components/quiz/ResultsPage.tsx:26-27 | the percentage is `100 * score / total` rounded half up |
| ResultsPage.PctWithin | src/components/quiz/ResultsPage.tsx:26-27 | a score between 0 and the total gives a percentage between 0 and 100 |
| ResultsPage.PctMonotone | src/components/quiz/ResultsPage.tsx:27 | a higher score never shows a lower percentage |
| ResultsPage.PctOfTen | src/components/quiz/ResultsPage.tsx:26-27 | with ten questions the percentage is exactly 10 × score |
| ResultsPage.TierOf | src/components/quiz/ResultsPage.tsx:29-34 | the message is "Outstanding" at 90 % or more, "Great job" from 70 % up to 90 %, "Good effort" from 50 % up to 70 %, and "Keep practicing" below 50 % |
| ResultsPage.MessagesDistinct | src/components/quiz/ResultsPage.tsx:29-34 | each message tier shows its own heading, different from the other three, so the heading tells the tier |
| ResultsPage.TierMonotone | src/components/quiz/ResultsPage.tsx:29-34 | a higher percentage never gets a lower message |
| ResultsPage.TierOfScore | src/components/quiz/ResultsPage.tsx:26-34 | over the bank: 9–10 right is outstanding, 7–8 great, 5–6 a good effort, fewer keep practising |
| ResultsPage.Lookup | src/components/quiz/ResultsPage.tsx:73 | `userAnswers[qi]` is the answer within the array and `undefined` past its end |
| ResultsPage.ReviewCard | src/components/quiz/ResultsPage.tsx:72-127 | a card shows its question and one row per option, with the option's letter and text |
| ResultsPage.CardTags | src/components/quiz/ResultsPage.tsx:73-120 | a card is correct exactly when the key was picked, so a skip is never correct; "✓ Correct" is on the key and nowhere else; "Your answer" is only on a wrongly picked option, and some option has it exactly when a wrong in-range option was picked; "Skipped" appears only on the key of a skipped question, and always there |
| ResultsPage.Cards | src/components/quiz/ResultsPage.tsx:72-75 | one card per question of the bank, in order |
| ResultsPage.CorrectCardsAreScore | src/components/quiz/ResultsPage.tsx:72-91 | once every question has an answer, the cards marked correct are as many as the score the page kept |
| ResultsPage.CelebrationOf | src/components/quiz/ResultsPage.tsx:40-49 | the confetti and the "Top Scorer!" banner appear together, exactly when the flag is `true` |
| Leaderboard.IconOf | src/components/quiz/LeaderboardPage.tsx:28-33 | a crown for rank 1, medals for ranks 2 and 3, the number itself otherwise |
| Leaderboard.BgOf | src/components/quiz/LeaderboardPage.tsx:35-40 | gold for rank 1, tinted for ranks 2 and 3, the card background otherwise |
| Leaderboard.IconMatchesBg | src/components/quiz/LeaderboardPage.tsx:28-40 | icon and background change at the same ranks |
| Leaderboard.Board | src/components/quiz/LeaderboardPage.tsx:66-115 | the empty-state message exactly when there are no entries; otherwise one row per entry, in the order received, with that entry's name and score |
| Leaderboard.RanksArePositions | src/components/quiz/LeaderboardPage.tsx:73-74 | ranks run over 1..n and strictly increase, so tied entries still get different ranks |
| Leaderboard.Badges | src/components/quiz/LeaderboardPage.tsx:75-104 | "Winner" is shown exactly on rank 1, which is also the crowned row; "You" is shown exactly on the caller's own entry when it is not rank 1; no row has both |
| Leaderboard.LeaderHasNoYouBadge | src/components/quiz/LeaderboardPage.tsx:73-104 | when the rendered board starts with the caller's submitted id (and ids are distinct), the first row is the highlighted winner and no row shows "You" |
| Leaderboard.WinnerIsTopScorer | src/lib/supabase-quiz.ts:32-42 | on entries in the order the leaderboard query returns, the dashboard's top-scorer selection applied to these same entries picks the winner's row |
| AdminDashboard.AvgScore | src/components/quiz/AdminDashboard.tsx:50-52 | there is no average (a dash) exactly when there are no attempts; otherwise the average times the count is the sum of the scores |
| AdminDashboard.SumScoresWithin | src/components/quiz/AdminDashboard.tsx:51 | scores in 0..top sum to between 0 and count × top |
| AdminDashboard.AvgScoreWithin | src/components/quiz/AdminDashboard.tsx:50-52 | scores in 0..top average to a value in 0..top |
| AdminDashboard.Compare | src/components/quiz/AdminDashboard.tsx:55 | the comparator is negative exactly when the first attempt outranks the second, positive exactly for the reverse, and zero exactly for equal score and time |
| AdminDashboard.RankSortOrders | src/components/quiz/AdminDashboard.tsx:55 | the sorted copy is a permutation of the attempts and is in leaderboard order |
| AdminDashboard.TopIndex | src/components/quiz/AdminDashboard.tsx:54-56 | no attempt outranks the chosen one, and it outranks every attempt before it, so it is the first of the best |
| AdminDashboard.RankSortHead | src/components/quiz/AdminDashboard.tsx:55 | the stable sort puts that first best attempt at the head |
| AdminDashboard.TopScorer | src/components/quiz/AdminDashboard.tsx:54-56 | there is no top scorer exactly when there are no attempts; otherwise it is the first attempt, in fetched order, that nobody outranks |
| AdminDashboard.TopScorerIsBest | src/components/quiz/AdminDashboard.tsx:54-56 | the top scorer is one of the attempts, no score is higher, and no attempt with the same score is faster |
| AdminDashboard.TopScorerOfRanked | src/components/quiz/AdminDashboard.tsx:54-56 | on attempts already in leaderboard order the top scorer is the first one |
| AdminDashboard.ParticipantRow | src/components/quiz/AdminDashboard.tsx:31-39 | each attempt gives one CSV row with as many cells as the header, in header order: the name, the email, numerals that read back as the score, the total and the completion time (when not negative), and the ISO completion date |
| AdminDashboard.Table | src/components/quiz/AdminDashboard.tsx:31-39 | the table is the header row followed by one row per attempt, in order |
| AdminDashboard.Quote | src/components/quiz/AdminDashboard.tsx:40 | every field is wrapped in double quotes |
| AdminDashboard.ExportCsv | src/components/quiz/AdminDashboard.tsx:30-40 | reading the exported text as CSV gives back exactly the header and the attempt rows |
| AdminDashboard.ReadEscaped | src/components/quiz/AdminDashboard.tsx:40 | doubling every `"` in a value can be undone: the value is read back up to its closing quote |
| AdminDashboard.FieldRoundTrip | src/components/quiz/AdminDashboard.tsx:40 | a quoted field reads back as its value, leaving the rest of the text |
| AdminDashboard.LineRoundTrip | src/components/quiz/AdminDashboard.tsx:40 | a comma-joined line of quoted fields reads back as its row |
| AdminDashboard.ExportRoundTrip | src/components/quiz/AdminDashboard.tsx:40 | newline-joined lines read back as the table |

## Left out

- Leaderboard.WinnerIsTopScorer: applies the dashboard's selection to the leaderboard's own entries. The dashboard itself reads every attempt ordered by completion date, newest first (src/lib/supabase-quiz.ts:44-48), while the leaderboard is ordered by score and then time (src/lib/supabase-quiz.ts:36-37). On a full tie of score and time the two pages can name different people, and the model does not relate them.
- The page's top-scorer flag is taken from the leaderboard read right after the submission. The leaderboard page reads the board again, and nothing relates the two reads; `Leaderboard.LeaderHasNoYouBadge` is stated about the board the leaderboard page renders.
- The backend calls (`submitQuizResult`, `fetchLeaderboard`, `fetchAllParticipants` in `src/lib/supabase-quiz.ts`) and the Supabase client are replaced by their replies. The `Reply` parameters of `Session.Session.HandleAnswer` carry them, and the entry lists of the leaderboard and dashboard functions are what the backend returned. The query's ordering and its 100-row limit are taken as given (`Records.InRankOrder` states the order where a lemma needs it).
- `Date.now()`, `new Date(...).toISOString()` and `toLocaleString` are not modelled. The clock is the `nowMs` parameter, and the ISO conversion is the `toIso` parameter of the CSV export. The dashboard's local date column is not modelled.
- The dynamic `import()` of the backend module, `console.error`, the CSV `Blob` download and its file name are side effects with nothing to state.
- Timer scheduling is discrete: one call of `Tick` stands for one `setTimeout` of one second firing. The 600 ms delay before `onAnswer` is called is not modelled; the answer counts as emitted when the question locks.
- `Session.Session.HandleAnswer` reads the page's current fields. The handler itself reads the values from the render that created it. These agree, because the quiz screen emits at most one answer per question (`QuizScreen.QuestionTimer.Valid`).
- Floating point is not modelled: the progress bar width, the timer bar width, and `toFixed(1)` on the average. `AdminDashboard.AvgScore` is the exact rational average.
- ResultsPage.Pct: uses exact rational round-half-up, not `Math.round` on a floating-point quotient. `ResultsPage.PctOfTen` proves that the model gives exactly 10 × score on the ten-question bank. That `Math.round` on the floating-point quotient gives the same is argued from the eleven possible quotients, not proved.
- Registration.Validate: counts a name's length in Unicode scalar values. JavaScript's `.length` counts UTF-16 code units, so a name made of one character outside the Basic Multilingual Plane (an emoji) is too short here but long enough in the page. The model also leaves out the browser's own handling of the `type="email"` input inside the form (RegistrationForm.tsx lines 44 and 67). The browser strips surrounding whitespace from the value, and it blocks the submit event while a non-empty value is not an e-mail address. So `validate` never sees some values the model validates, such as " foo@bar.com" (`Registration.LeadingSpaceEmailExample`), and a blank name with an invalid email shows no message at all.
- Registration.Trim: whitespace is the six ASCII characters space, tab, line feed, vertical tab, form feed and carriage return. The other Unicode spaces that JavaScript's `trim` and `\s` also cover are left out.
- Registration.ToLower: lower-cases ASCII letters only. JavaScript's full Unicode case mapping is left out.
- The `maxLength` limits on the inputs (100 and 255) are enforced by the browser, not the code, and are not modelled.
- The loading placeholders of the leaderboard and the dashboard are not modelled, and neither are the landing page, the confetti animation, layout and styling. The dashboard's attempt table is not modelled either: it renders the fetched list with `formatTime` (`TimeFormat`).
- TimeFormat.ReadFormatTime: the round trip is stated for non-negative durations only. Completion times are never negative.

## Findings

| source | as written | input that shows it | evidently intended | confidence | as-written member | corrected member |
|---|---|---|---|---|---|---|
| src/components/quiz/QuizScreen.tsx:25-42 | The countdown effect depends on `onAnswer`, which the page creates anew on every render. It therefore re-runs in the same commit as the reset effect. By then the reset has cleared `answeredRef`, but the effect still sees the previous question's `timeLeft`. If that was 0, the effect locks the new question and sends `null` for it. | Let the first question run out (15 ticks), then enter the second. | Each question starts unlocked with a fresh 15-second countdown. | not executed | QuizScreen.TimeoutLocksNextQuestion | QuizScreen.TimeoutThenFreshQuestion |
| src/pages/Index.tsx:23-34 | `isTopScorer` is set when an attempt leads the board and is never reset, not even by `handleRegister`. | A participant leads the board, clicks "Retake", and finishes an attempt that the board read afterwards does not rank first. | The results page celebrates (banner and confetti) only an attempt that leads the board. | not executed | Session.StaleBannerAfterRetake | Session.NoBannerAfterRetake |
| src/components/quiz/QuizScreen.tsx:25-54 | `handleSubmit` does not clear the pending one-second tick. When the tick fires after a confirm made with one second showing, it takes the countdown to 0, and the stale `timeLeft` then locks the next question as in the first row. | On the first question, confirm an option more than 0.4 s after the timer shows 1 s, so that the pending one-second tick fires before the 600 ms delayed answer is sent; then enter the second question. (Confirmed earlier, the answer is sent first, the page re-renders, and the countdown effect's cleanup clears the tick.) | Each question starts unlocked with a fresh 15-second countdown. | not executed | QuizScreen.LateConfirmLocksNextQuestion | QuizScreen.LateConfirmThenFreshQuestion |

=== FILE: admin.dfy ===
/** The derived figures of `src/components/quiz/AdminDashboard.tsx`: the
    average-score card, the top-scorer card and the CSV export. The fetch
    that fills `participants`, the loading flag, the date formatting and
    the download itself are not part of this model. */
module AdminDashboard {
  import opened Wrappers
  import opened Records
  import Decimal

  // ---------------------------------------------------------------------
  // Average score
  // ---------------------------------------------------------------------

  /** `participants.reduce((s, p) => s + p.score, 0)`. */
  function SumScores(ps: seq<Participant>): int {
    if |ps| == 0 then 0 else SumScores(ps[..|ps| - 1]) + ps[|ps| - 1].score
  }

  /** The "Avg. Score" card: no value (the "—" sentinel) for an empty list,
      otherwise the exact mean; the one-decimal rendering is not modelled. */
  function AvgScore(ps: seq<Participant>): (avg: Option<real>)
    ensures avg.None? <==> |ps| == 0
    ensures avg.Some? ==> avg.value * |ps| as real == SumScores(ps) as real
  {
    if |ps| == 0 then None else Some(SumScores(ps) as real / |ps| as real)
  }

  /** Every score lies in `0..top`. */
  predicate ScoresWithin(ps: seq<Participant>, top: int) {
    forall i :: 0 <= i < |ps| ==> 0 <= ps[i].score <= top
  }

  lemma {:induction false} SumScoresWithin(ps: seq<Participant>, top: int)
    requires ScoresWithin(ps, top)
    ensures 0 <= SumScores(ps) <= |ps| * top
  {
    if |ps| > 0 {
      var init := ps[..|ps| - 1];
      assert ScoresWithin(init, top) by {
        forall i | 0 <= i < |init| ensures 0 <= init[i].score <= top {
          assert init[i] == ps[i];
        }
      }
      SumScoresWithin(init, top);
    }
  }

  /** With every score in `0..top`, so is the average. */
  lemma AvgScoreWithin(ps: seq<Participant>, top: int)
    requires |ps| > 0 && ScoresWithin(ps, top)
    ensures 0.0 <= AvgScore(ps).value <= top as real
  {
    SumScoresWithin(ps, top);
    var n := |ps| as real;
    var avg := AvgScore(ps).value;
    assert avg * n <= top as real * n;
  }

  // ---------------------------------------------------------------------
  // Top scorer
  // ---------------------------------------------------------------------

  /** The comparator handed to `sort`: `b.score - a.score`, or when that is
      0, `a.completion_time - b.completion_time`. Negative means `a` goes
      first. */
  function Compare(a: Participant, b: Participant): (c: int)
    ensures c < 0 <==> Outranks(a, b)
    ensures c > 0 <==> Outranks(b, a)
    ensures c == 0 <==> a.score == b.score && a.completionTime == b.completionTime
  {
    if b.score - a.score != 0 then b.score - a.score
    else a.completionTime - b.completionTime
  }

  /** Places `x` into the ordered list `s` after the entries the comparator
      puts strictly before it, and before all others, as a stable sort does
      with an element that came earlier in its input. */
  function Insert(x: Participant, s: seq<Participant>): (r: seq<Participant>)
    ensures multiset(r) == multiset(s) + multiset{x}
  {
    if |s| == 0 || Compare(s[0], x) >= 0 then [x] + s
    else
      assert s == [s[0]] + s[1..];
      [s[0]] + Insert(x, s[1..])
  }

  /** `[...participants].sort(comparator)`: a stable sort of a copy. */
  function RankSort(ps: seq<Participant>): (r: seq<Participant>)
    ensures multiset(r) == multiset(ps)
  {
    if |ps| == 0 then []
    else
      assert ps == [ps[0]] + ps[1..];
      Insert(ps[0], RankSort(ps[1..]))
  }

  lemma {:induction false} InsertKeepsOrder(x: Participant, s: seq<Participant>)
    requires InRankOrder(s)
    ensures InRankOrder(Insert(x, s))
  {
    if |s| == 0 || Compare(s[0], x) >= 0 {
      var r := [x] + s;
      forall i, j | 0 <= i < j < |r| ensures !Outranks(r[j], r[i]) {
        if i == 0 && j > 1 {
          assert !Outranks(s[j - 1], s[0]);
        }
      }
    } else {
      var t := Insert(x, s[1..]);
      assert InRankOrder(s[1..]) by {
        forall i, j | 0 <= i < j < |s| - 1 ensures !Outranks(s[1..][j], s[1..][i]) {
          assert s[1..][j] == s[j + 1] && s[1..][i] == s[i + 1];
        }
      }
      InsertKeepsOrder(x, s[1..]);
      var r := [s[0]] + t;
      forall j | 0 <= j < |t| ensures !Outranks(t[j], s[0]) {
        assert t[j] in multiset(t);
        if t[j] != x {
          assert t[j] in multiset(s[1..]);
          var k :| 0 <= k < |s[1..]| && s[1..][k] == t[j];
          assert s[k + 1] == t[j];
        }
      }
      forall i, j | 0 <= i < j < |r| ensures !Outranks(r[j], r[i]) {
        if i > 0 {
          assert r[i] == t[i - 1] && r[j] == t[j - 1];
        }
      }
    }
  }

  /** The sort yields the same entries, ordered by score and then time. */
  lemma {:induction false} RankSortOrders(ps: seq<Participant>)
    ensures |RankSort(ps)| == |ps| && multiset(RankSort(ps)) == multiset(ps)
    ensures InRankOrder(RankSort(ps))
  {
    assert |multiset(RankSort(ps))| == |multiset(ps)|;
    if |ps| > 0 {
      RankSortOrders(ps[1..]);
      InsertKeepsOrder(ps[0], RankSort(ps[1..]));
    }
  }

  /** The position of the entry a stable sort brings to the front: the
      earliest of the entries that nothing outranks. */
  function TopIndex(ps: seq<Participant>): (k: nat)
    requires |ps| > 0
    ensures k < |ps|
    ensures forall j :: 0 <= j < |ps| ==> !Outranks(ps[j], ps[k])
    ensures forall j :: 0 <= j < k ==> Outranks(ps[k], ps[j])
  {
    if |ps| == 1 then 0
    else
      var k := TopIndex(ps[1..]) + 1;
      if Outranks(ps[k], ps[0]) then k else 0
  }

  lemma {:induction false} RankSortHead(ps: seq<Participant>)
    requires |ps| > 0
    ensures |RankSort(ps)| > 0 && RankSort(ps)[0] == ps[TopIndex(ps)]
  {
    if |ps| > 1 {
      RankSortHead(ps[1..]);
    }
  }

  /** The "Top Scorer" card: none for an empty list, otherwise the first
      entry of the sorted copy, which is the highest score, the fastest
      among those, and on a full tie the one listed first. */
  function TopScorer(ps: seq<Participant>): (top: Option<Participant>)
    ensures top.None? <==> |ps| == 0
    ensures top.Some? ==> top.value == ps[TopIndex(ps)]
  {
    if |ps| == 0 then None
    else
      RankSortHead(ps);
      Some(RankSort(ps)[0])
  }

  /** Read off the ordering: the top scorer has the highest score, and the
      shortest time among the entries with that score. */
  lemma TopScorerIsBest(ps: seq<Participant>)
    requires |ps| > 0
    ensures TopScorer(ps).value in ps
    ensures forall p :: p in ps ==> p.score <= TopScorer(ps).value.score
    ensures forall p :: p in ps && p.score == TopScorer(ps).value.score ==>
      TopScorer(ps).value.completionTime <= p.completionTime
  {
    var k := TopIndex(ps);
    forall p | p in ps ensures !Outranks(p, ps[k]) {
      var j :| 0 <= j < |ps| && ps[j] == p;
    }
  }

  /** On a list already in rank order (as the backend returns the
      leaderboard), the top scorer is the first entry. */
  lemma TopScorerOfRanked(ps: seq<Participant>)
    requires |ps| > 0 && InRankOrder(ps)
    ensures TopScorer(ps) == Some(ps[0])
  {
    var k := TopIndex(ps);
    if k > 0 {
      assert false;
    }
  }

  // ---------------------------------------------------------------------
  // CSV export
  // ---------------------------------------------------------------------

  /** The header row: six column names. */
  const Header: seq<string> :=
    ["Name", "Email", "Score", "Total Questions", "Completion Time (s)", "Completed At"]

  /** One participant's row, in header order. Numbers are printed as
      `String(n)` prints them; `toIso` stands for
      `new Date(completed_at).toISOString()`. */
  function ParticipantRow(p: Participant, toIso: string -> string): (row: seq<string>)
    ensures |row| == |Header|
    ensures row[0] == p.name && row[1] == p.email && row[5] == toIso(p.completedAt)
    ensures p.score >= 0 ==> Decimal.AllDigits(row[2]) && Decimal.ParseNat(row[2]) == p.score
    ensures p.totalQuestions >= 0 ==>
      Decimal.AllDigits(row[3]) && Decimal.ParseNat(row[3]) == p.totalQuestions
    ensures p.completionTime >= 0 ==>
      Decimal.AllDigits(row[4]) && Decimal.ParseNat(row[4]) == p.completionTime
  {
    [p.name, p.email, Decimal.IntToString(p.score), Decimal.IntToString(p.totalQuestions),
     Decimal.IntToString(p.completionTime), toIso(p.completedAt)]
  }

  /** `[headers, ...rows]`. */
  function Table(ps: seq<Participant>, toIso: string -> string): (table: seq<seq<string>>)
    ensures |table| == |ps| + 1 && table[0] == Header
    ensures forall i :: 0 <= i < |ps| ==> table[i + 1] == ParticipantRow(ps[i], toIso)
  {
    [Header] + seq(|ps|, i requires 0 <= i < |ps| => ParticipantRow(ps[i], toIso))
  }

  /** `v.replace(/"/g, '""')`. */
  function Escape(v: string): (e: string)
    ensures |e| >= |v|
    ensures |v| > 0 && v[0] != '"' ==> |e| > 0 && e[0] == v[0]
  {
    if |v| == 0 then []
    else (if v[0] == '"' then "\"\"" else [v[0]]) + Escape(v[1..])
  }

  /** A field: the escaped text between double quotes. */
  function Quote(v: string): (f: string)
    ensures |f| >= 2 && f[0] == '"' && f[|f| - 1] == '"'
  {
    "\"" + Escape(v) + "\""
  }

  /** `parts.join(sep)`. */
  function Join(sep: char, parts: seq<string>): string {
    if |parts| == 0 then []
    else if |parts| == 1 then parts[0]
    else parts[0] + [sep] + Join(sep, parts[1..])
  }

  /** A row: its fields quoted and joined by commas. */
  function CsvLine(row: seq<string>): string {
    Join(',', seq(|row|, i requires 0 <= i < |row| => Quote(row[i])))
  }

  /** Rows rendered and joined by line feeds. */
  function CsvText(table: seq<seq<string>>): string {
    Join('\n', seq(|table|, i requires 0 <= i < |table| => CsvLine(table[i])))
  }

  /** The text `exportCSV` puts in the download. */
  function ExportCsv(ps: seq<Participant>, toIso: string -> string): (csv: string)
    ensures ReadCsv(csv) == Some(Table(ps, toIso))
  {
    ExportRoundTrip(Table(ps, toIso));
    CsvText(Table(ps, toIso))
  }

  // A reader for the format written above, to state what the writer keeps.

  /** The value of a quoted field whose opening quote has been consumed: up
      to the closing quote, with `""` read as one `"`; and what follows the
      closing quote. */
  function ReadQuoted(s: string): (r: Option<(string, string)>)
    ensures r.Some? ==> |r.value.1| < |s|
  {
    if |s| == 0 then None
    else if s[0] == '"' then
      if |s| > 1 && s[1] == '"' then
        match ReadQuoted(s[2..])
        case None => None
        case Some((v, rest)) => Some(("\"" + v, rest))
      else Some(([], s[1..]))
    else
      match ReadQuoted(s[1..])
      case None => None
      case Some((v, rest)) => Some(([s[0]] + v, rest))
  }

  /** One quoted field and what follows it. */
  function ReadField(s: string): (r: Option<(string, string)>)
    ensures r.Some? ==> |r.value.1| < |s|
  {
    if |s| > 0 && s[0] == '"' then ReadQuoted(s[1..]) else None
  }

  /** Comma-separated fields, up to the end of the line. */
  function ReadFields(s: string): (r: Option<(seq<string>, string)>)
    ensures r.Some? ==> |r.value.1| < |s|
    decreases |s|
  {
    match ReadField(s)
    case None => None
    case Some((v, rest)) =>
      if |rest| > 0 && rest[0] == ',' then
        match ReadFields(rest[1..])
        case None => None
        case Some((vs, rest')) => Some(([v] + vs, rest'))
      else Some(([v], rest))
  }

  /** Lines separated by line feeds, each a non-empty list of fields. */
  function ReadCsv(s: string): Option<seq<seq<string>>>
    decreases |s|
  {
    match ReadFields(s)
    case None => None
    case Some((row, rest)) =>
      if |rest| == 0 then Some([row])
      else if rest[0] == '\n' then
        match ReadCsv(rest[1..])
        case None => None
        case Some(rows) => Some([row] + rows)
      else None
  }

  /** Reading the escaped text back stops at the closing quote and returns
      the original value: stripping the quotes and collapsing `""` gives
      back `String(v)`. */
  lemma {:induction false} ReadEscaped(v: string, rest: string)
    requires rest == [] || rest[0] != '"'
    ensures ReadQuoted(Escape(v) + "\"" + rest) == Some((v, rest))
  {
    if |v| == 0 {
      assert Escape(v) + "\"" + rest == ['"'] + rest;
    } else {
      var s := Escape(v) + "\"" + rest;
      ReadEscaped(v[1..], rest);
      var tail := Escape(v[1..]) + "\"" + rest;
      if v[0] == '"' {
        assert s == "\"\"" + tail;
        assert s[2..] == tail;
        assert "\"" + v[1..] == v;
      } else {
        assert s == [v[0]] + tail;
        assert s[1..] == tail;
        assert [v[0]] + v[1..] == v;
      }
    }
  }

  lemma FieldRoundTrip(v: string, rest: string)
    requires rest == [] || rest[0] != '"'
    ensures ReadField(Quote(v) + rest) == Some((v, rest))
  {
    ReadEscaped(v, rest);
    assert Quote(v) + rest == "\"" + (Escape(v) + "\"" + rest);
  }

  /** A rendered row reads back as its fields, whatever follows it on a new
      line. */
  lemma {:induction false} LineRoundTrip(row: seq<string>, rest: string)
    requires |row| > 0
    requires rest == [] || rest[0] == '\n'
    ensures ReadFields(CsvLine(row) + rest) == Some((row, rest))
    decreases |row|
  {
    var quoted := seq(|row|, i requires 0 <= i < |row| => Quote(row[i]));
    if |row| == 1 {
      assert quoted == [Quote(row[0])];
      FieldRoundTrip(row[0], rest);
      assert [row[0]] == row;
    } else {
      var tail := CsvLine(row[1..]) + rest;
      assert quoted[1..] == seq(|row| - 1, i requires 0 <= i < |row| - 1 => Quote(row[1..][i]));
      assert CsvLine(row) + rest == Quote(row[0]) + ([','] + tail);
      FieldRoundTrip(row[0], [','] + tail);
      LineRoundTrip(row[1..], rest);
      assert ([','] + tail)[1..] == tail;
      assert [row[0]] + row[1..] == row;
    }
  }

  /** The whole text reads back as the table it was rendered from. */
  lemma {:induction false} ExportRoundTrip(table: seq<seq<string>>)
    requires |table| > 0
    requires forall i :: 0 <= i < |table| ==> |table[i]| > 0
    ensures ReadCsv(CsvText(table)) == Some(table)
    decreases |table|
  {
    var lines := seq(|table|, i requires 0 <= i < |table| => CsvLine(table[i]));
    if |table| == 1 {
      assert lines == [CsvLine(table[0])];
      LineRoundTrip(table[0], []);
      assert CsvText(table) == CsvLine(table[0]) + [];
      assert [table[0]] == table;
    } else {
      var tail := CsvText(table[1..]);
      assert lines[1..] == seq(|table| - 1, i requires 0 <= i < |table| - 1 => CsvLine(table[1..][i]));
      assert CsvText(table) == CsvLine(table[0]) + (['\n'] + tail);
      LineRoundTrip(table[0], ['\n'] + tail);
      ExportRoundTrip(table[1..]);
      assert (['\n'] + tail)[1..] == tail;
      assert [table[0]] + table[1..] == table;
    }
  }
}

=== FILE: decimal.dfy ===
/** Decimal rendering of integers, as `String(n)` and template literals
    (`${n}`) print them, with the reader that inverts it. */
module Decimal {

  predicate IsDigit(c: char) {
    '0' <= c <= '9'
  }

  predicate AllDigits(s: string) {
    forall i :: 0 <= i < |s| ==> IsDigit(s[i])
  }

  function DigitChar(d: nat): (c: char)
    requires d < 10
    ensures IsDigit(c)
  {
    ('0' as int + d) as char
  }

  function DigitValue(c: char): (d: nat)
    requires IsDigit(c)
    ensures d < 10 && DigitChar(d) == c
  {
    c as int - '0' as int
  }

  /** The shortest decimal numeral of `n`: digits only, no leading zero. */
  function NatToString(n: nat): (s: string)
    ensures |s| > 0 && AllDigits(s)
    ensures |s| > 1 ==> s[0] != '0'
    decreases n
  {
    if n < 10 then [DigitChar(n)] else NatToString(n / 10) + [DigitChar(n % 10)]
  }

  /** The value of a numeral (the empty numeral reads as 0). */
  function ParseNat(s: string): nat
    requires AllDigits(s)
  {
    if |s| == 0 then 0 else 10 * ParseNat(s[..|s| - 1]) + DigitValue(s[|s| - 1])
  }

  /** `String(i)` for an integer-valued JavaScript number: a numeral that
      reads back as `i`, after a `-` when `i` is negative. */
  function IntToString(i: int): (s: string)
    ensures i >= 0 ==> AllDigits(s) && ParseNat(s) == i
    ensures i < 0 ==> |s| >= 2 && s[0] == '-' && AllDigits(s[1..]) && ParseNat(s[1..]) == -i
  {
    if i < 0 then
      ParseNatToString(-i);
      assert ("-" + NatToString(-i))[1..] == NatToString(-i);
      "-" + NatToString(-i)
    else
      ParseNatToString(i);
      NatToString(i)
  }

  lemma {:induction false} ParseNatToString(n: nat)
    ensures ParseNat(NatToString(n)) == n
    decreases n
  {
    var s := NatToString(n);
    if n < 10 {
      assert s[..|s| - 1] == [];
    } else {
      assert s[..|s| - 1] == NatToString(n / 10);
      ParseNatToString(n / 10);
    }
  }
}

=== FILE: leaderboard.dfy ===
/** The list of `src/components/quiz/LeaderboardPage.tsx`: positional ranks,
    the rank icon and background tiers, and the "Winner" and "You" badges.
    The entries are what the backend returned; the fetch and the loading
    placeholder are not part of this model. */
module Leaderboard {
  import opened Wrappers
  import opened Records
  import TimeFormat
  import AdminDashboard
  import Session

  /** `getRankIcon(rank)`. */
  datatype RankIcon = Crown | SilverMedal | BronzeMedal | Number(n: int)

  /** `getRankBg(rank)`. */
  datatype RankBg = GoldBg | SilverBg | BronzeBg | CardBg

  function IconOf(rank: int): (icon: RankIcon)
    ensures icon == Crown <==> rank == 1
    ensures icon.Number? <==> rank !in {1, 2, 3}
    ensures icon.Number? ==> icon.n == rank
  {
    if rank == 1 then Crown
    else if rank == 2 then SilverMedal
    else if rank == 3 then BronzeMedal
    else Number(rank)
  }

  function BgOf(rank: int): (bg: RankBg)
    ensures bg == GoldBg <==> rank == 1
    ensures bg == CardBg <==> rank !in {1, 2, 3}
  {
    if rank == 1 then GoldBg
    else if rank == 2 then SilverBg
    else if rank == 3 then BronzeBg
    else CardBg
  }

  /** The icon and the background change at the same ranks: a medal rank
      has a tinted background, and a plain number the card background. */
  lemma IconMatchesBg(rank: int)
    ensures IconOf(rank) == Crown <==> BgOf(rank) == GoldBg
    ensures IconOf(rank) == SilverMedal <==> BgOf(rank) == SilverBg
    ensures IconOf(rank) == BronzeMedal <==> BgOf(rank) == BronzeBg
    ensures IconOf(rank).Number? <==> BgOf(rank) == CardBg
  {
  }

  /** One rendered entry. `highlighted` is the ring around the caller's own
      entry. */
  datatype Row = Row(
    rank: int,
    name: string,
    time: string,
    score: int,
    totalQuestions: int,
    icon: RankIcon,
    bg: RankBg,
    highlighted: bool,
    winner: bool,
    you: bool)

  /** The page body once loading has finished. */
  datatype BoardView = EmptyState | Rows(rows: seq<Row>)

  /** The row for `entries[i]`; `highlightId` is the id of the attempt just
      submitted, if any (an absent id equals no entry's id). */
  function RowAt(entries: seq<Participant>, i: nat, highlightId: Option<string>): Row
    requires i < |entries|
  {
    var entry := entries[i];
    var rank := i + 1;
    var isHighlighted := highlightId == Some(entry.id);
    var isWinner := rank == 1;
    Row(rank, entry.name, TimeFormat.FormatTime(entry.completionTime), entry.score,
      entry.totalQuestions, IconOf(rank), BgOf(rank), isHighlighted, isWinner,
      isHighlighted && !isWinner)
  }

  /** The empty-state message for no entries, otherwise one row per entry in
      the order received. */
  function Board(entries: seq<Participant>, highlightId: Option<string>): (view: BoardView)
    ensures view.EmptyState? <==> |entries| == 0
    ensures view.Rows? ==> |view.rows| == |entries|
    ensures view.Rows? ==> forall i :: 0 <= i < |entries| ==>
      view.rows[i] == RowAt(entries, i, highlightId) && view.rows[i].name == entries[i].name &&
      view.rows[i].score == entries[i].score
  {
    if |entries| == 0 then EmptyState
    else Rows(seq(|entries|, i requires 0 <= i < |entries| => RowAt(entries, i, highlightId)))
  }

  /** Ranks are positions counted from 1: they run over `1..n`, are all
      different, and ties in score and time still get different ranks. */
  lemma RanksArePositions(entries: seq<Participant>, highlightId: Option<string>)
    requires |entries| > 0
    ensures forall i :: 0 <= i < |entries| ==> 1 <= Board(entries, highlightId).rows[i].rank <= |entries|
    ensures forall i, j :: 0 <= i < j < |entries| ==>
      Board(entries, highlightId).rows[i].rank < Board(entries, highlightId).rows[j].rank
  {
  }

  /** The badges: "Winner" exactly on rank 1; "You" exactly on the caller's
      entry when it is not rank 1; never both on one row. */
  lemma Badges(entries: seq<Participant>, highlightId: Option<string>, i: nat)
    requires i < |entries|
    ensures var row := Board(entries, highlightId).rows[i];
      (row.winner <==> row.rank == 1) &&
      (row.you <==> highlightId == Some(entries[i].id) && row.rank != 1) &&
      !(row.winner && row.you) &&
      (row.icon == Crown <==> row.winner)
  {
  }

  /** No id is shared by two entries. */
  predicate DistinctIds(entries: seq<Participant>) {
    forall i, j :: 0 <= i < j < |entries| ==> entries[i].id != entries[j].id
  }

  /** After a run that reached the top of the board, the caller's row is the
      winner's row and no row carries the "You" badge. */
  lemma LeaderHasNoYouBadge(entries: seq<Participant>, submittedId: Option<string>)
    requires Session.LeadsBoard(submittedId, entries) && DistinctIds(entries)
    ensures Board(entries, submittedId).rows[0].winner && Board(entries, submittedId).rows[0].highlighted
    ensures forall i :: 0 <= i < |entries| ==> !Board(entries, submittedId).rows[i].you
  {
    forall i | 0 < i < |entries| ensures !Board(entries, submittedId).rows[i].highlighted {
      assert entries[0].id != entries[i].id;
    }
  }

  /** With entries in the order the leaderboard query promises, the admin
      dashboard's top-scorer selection, applied to these same entries, picks
      the winner's row. */
  lemma WinnerIsTopScorer(entries: seq<Participant>, highlightId: Option<string>)
    requires |entries| > 0 && InRankOrder(entries)
    ensures Board(entries, highlightId).rows[0].winner
    ensures AdminDashboard.TopScorer(entries) == Some(entries[0])
  {
    AdminDashboard.TopScorerOfRanked(entries);
  }
}

=== FILE: questions.dfy ===
/** The static question bank of `src/data/questions.ts`. */
module Questions {

  /** One multiple-choice question; `correctAnswer` indexes `options`. */
  datatype Question = Question(question: string, options: seq<string>, correctAnswer: int)

  /** `quizQuestions`: ten questions, read by index and never written. */
  const QuizQuestions: seq<Question> := [
    Question("What is cloud computing?",
      ["Storing data only on personal computers",
       "Delivering computing services over the internet",
       "Using hardware without software",
       "Connecting USB devices to a server"], 1),
    Question("Which of the following is an example of a cloud service provider?",
      ["Windows Defender",
       "Google Cloud Platform",
       "Adobe Photoshop",
       "VLC Media Player"], 1),
    Question("What does IaaS stand for?",
      ["Internet as a Service",
       "Infrastructure as a Service",
       "Integration as a Software",
       "Interface as a System"], 1),
    Question("Which cloud model allows shared resources among multiple users?",
      ["Private Cloud",
       "Hybrid Cloud",
       "Public Cloud",
       "Community Cloud"], 2),
    Question("Which of the following is a benefit of cloud computing?",
      ["High upfront hardware cost",
       "Limited scalability",
       "On-demand resource availability",
       "Manual software updates"], 2),
    Question("What does SaaS stand for?",
      ["Software as a Service",
       "Storage as a System",
       "Server as a Software",
       "Security as a Service"], 0),
    Question("Which cloud deployment model combines public and private clouds?",
      ["Hybrid Cloud",
       "Community Cloud",
       "Edge Cloud",
       "Distributed Cloud"], 0),
    Question("Which of the following is an example of SaaS?",
      ["Amazon EC2",
       "Google Docs",
       "Microsoft Azure VM",
       "Docker Engine"], 1),
    Question("What is elasticity in cloud computing?",
      ["Permanent storage capacity",
       "Automatic scaling of resources",
       "Fixed server configuration",
       "Manual resource allocation"], 1),
    Question("Which service model gives developers control over applications without managing hardware?",
      ["IaaS",
       "SaaS",
       "PaaS",
       "DaaS"], 2)
  ]

  /** The option letters shown beside each option (`OPTION_LABELS`). */
  const OptionLabels: seq<string> := ["A", "B", "C", "D"]

  /** A question the screens can render: one option per label, and a key
      that names one of those options. */
  predicate WellFormed(q: Question) {
    |q.options| == |OptionLabels| && 0 <= q.correctAnswer < |q.options|
  }

  /** The answer key of a bank, in question order. */
  function AnswerKey(bank: seq<Question>): (key: seq<int>)
    ensures |key| == |bank|
    ensures forall i :: 0 <= i < |bank| ==> key[i] == bank[i].correctAnswer
  {
    if |bank| == 0 then [] else AnswerKey(bank[..|bank| - 1]) + [bank[|bank| - 1].correctAnswer]
  }

  /** Shape of the bank that the quiz, results and session code rely on. */
  lemma BankShape()
    ensures |QuizQuestions| == 10
    ensures forall i :: 0 <= i < |QuizQuestions| ==> WellFormed(QuizQuestions[i])
  {
  }

  /** The key of the bank, in order. */
  lemma BankKey()
    ensures AnswerKey(QuizQuestions) == [1, 1, 1, 2, 2, 0, 0, 1, 1, 2]
  {
  }
}

=== FILE: quiz_screen.dfy ===
/** The per-question countdown and answer lock of
    `src/components/quiz/QuizScreen.tsx`. */
module QuizScreen {
  import opened Wrappers
  import opened Questions

  /** `TIMER_SECONDS`. */
  const TimerSeconds: int := 15

  /** The colour band of the countdown (`getTimerColor`). */
  datatype TimerBand = Primary | Amber | Destructive

  function BandOf(timeLeft: int): TimerBand {
    if timeLeft > 10 then Primary else if timeLeft > 5 then Amber else Destructive
  }

  /** The countdown badge pulses (`timer-pulse`). */
  predicate Pulses(timeLeft: int) {
    timeLeft <= 5
  }

  /** The three bands split the countdown at 10 and 5 seconds, and the badge
      pulses exactly in the last band. */
  lemma BandThresholds(timeLeft: int)
    ensures BandOf(timeLeft) == Primary <==> timeLeft > 10
    ensures BandOf(timeLeft) == Amber <==> 6 <= timeLeft <= 10
    ensures BandOf(timeLeft) == Destructive <==> timeLeft <= 5
    ensures Pulses(timeLeft) <==> BandOf(timeLeft) == Destructive
  {
  }

  /** The component's state for the question on screen. `answered` is the
      React state and `answeredRef` the ref; `tickPending` says that the
      one-second `setTimeout` scheduled by the countdown effect has not fired
      or been cleared; `emitted` lists the values `onAnswer` has been called
      with for this question (the 600 ms pacing delay before the call is not
      modelled). */
  class QuestionTimer {
    var currentIndex: nat
    var timeLeft: int
    var selected: Option<int>
    var answered: bool
    var answeredRef: bool
    var tickPending: bool
    var emitted: seq<Option<int>>

    /** The countdown stays within 0..15; the state flag and the ref agree;
        a question emits at most one answer, and has emitted one exactly when
        it is locked; an unlocked question always has a tick on the way. */
    ghost predicate Valid()
      reads this
    {
      currentIndex < |QuizQuestions| &&
      0 <= timeLeft <= TimerSeconds &&
      answered == answeredRef &&
      |emitted| <= 1 && (answeredRef <==> |emitted| == 1) &&
      (!answeredRef ==> tickPending) &&
      (tickPending ==> timeLeft > 0) &&
      (selected.Some? ==> 0 <= selected.value < |QuizQuestions[currentIndex].options|)
    }

    /** The state right after a question has been entered. */
    predicate Entered(index: nat)
      reads this
    {
      currentIndex == index && timeLeft == TimerSeconds && selected == None &&
      !answered && !answeredRef && tickPending && emitted == []
    }

    /** Mounting the screen: the initial state values, then both effects. */
    constructor (index: nat)
      requires index < |QuizQuestions|
      ensures Valid() && Entered(index)
    {
      currentIndex := index;
      timeLeft := TimerSeconds;
      selected := None;
      answered, answeredRef := false, false;
      tickPending := true;
      emitted := [];
    }

    /** A new `currentIndex`: the reset effect restores the countdown, clears
        the selection and unlocks, and the countdown effect schedules the
        first tick of the fresh countdown. */
    method EnterQuestion(index: nat)
      requires Valid() && index < |QuizQuestions|
      modifies this
      ensures Valid() && Entered(index)
    {
      currentIndex := index;
      timeLeft := TimerSeconds;
      selected := None;
      answered, answeredRef := false, false;
      tickPending := true;
      emitted := [];
    }

    /** A new `currentIndex` as the page runs it: `onAnswer` is a new
        function on every render of the page, so the countdown effect re-runs
        in the same commit as the reset effect, after it has cleared the ref
        but still seeing the previous question's `timeLeft`. When that stands
        at 0 (after a timeout, or after a tick still pending from a late
        confirm), the new question is locked at once and emits `null`;
        otherwise it is freshly entered. */
    method EnterQuestionAsWritten(index: nat)
      requires Valid() && index < |QuizQuestions|
      modifies this
      ensures Valid() && currentIndex == index && timeLeft == TimerSeconds && selected == None
      ensures old(timeLeft) > 0 ==> Entered(index)
      ensures old(timeLeft) <= 0 ==> answered && answeredRef && !tickPending && emitted == [None]
    {
      var staleTimeLeft := timeLeft;
      currentIndex := index;
      timeLeft := TimerSeconds;
      selected := None;
      answered, answeredRef := false, false;
      emitted := [];
      if staleTimeLeft <= 0 {
        answeredRef := true;
        answered := true;
        tickPending := false;
        emitted := [None];
      } else {
        tickPending := true;
      }
    }

    /** One second passes. If a tick is scheduled it fires and decrements the
        countdown, and the countdown effect runs again: on a locked question
        it stops; at 0 it locks the question and emits `null`; otherwise it
        schedules the next tick. `handleSubmit` does not clear a scheduled
        tick, so a question locked by a submission still counts down once. */
    method Tick()
      requires Valid()
      modifies this
      ensures Valid()
      ensures currentIndex == old(currentIndex) && selected == old(selected)
      ensures !old(tickPending) ==>
        timeLeft == old(timeLeft) && answeredRef == old(answeredRef) && emitted == old(emitted) &&
        !tickPending
      ensures old(tickPending) ==> timeLeft == old(timeLeft) - 1
      ensures old(tickPending) && old(answeredRef) ==> answeredRef && emitted == old(emitted) && !tickPending
      ensures old(tickPending) && !old(answeredRef) && timeLeft == 0 ==>
        answeredRef && emitted == [None] && !tickPending
      ensures old(tickPending) && !old(answeredRef) && timeLeft > 0 ==>
        !answeredRef && emitted == [] && tickPending
    {
      if tickPending {
        timeLeft := timeLeft - 1;
        tickPending := false;
        if answeredRef {
        } else if timeLeft <= 0 {
          answeredRef := true;
          answered := true;
          emitted := emitted + [None];
        } else {
          tickPending := true;
        }
      }
    }

    /** `handleOptionClick(idx)`: ignored once the question is answered;
        otherwise the latest click is the selection. */
    method HandleOptionClick(idx: int)
      requires Valid() && 0 <= idx < |QuizQuestions[currentIndex].options|
      modifies this
      ensures Valid()
      ensures selected == if old(answered) then old(selected) else Some(idx)
      ensures currentIndex == old(currentIndex) && timeLeft == old(timeLeft)
      ensures answered == old(answered) && answeredRef == old(answeredRef)
      ensures tickPending == old(tickPending) && emitted == old(emitted)
    {
      if answered {
        return;
      }
      selected := Some(idx);
    }

    /** `handleSubmit(ans)`: does nothing on a locked question; otherwise
        locks it and emits `ans`. */
    method HandleSubmit(ans: Option<int>)
      requires Valid()
      modifies this
      ensures Valid() && answeredRef
      ensures emitted == if old(answeredRef) then old(emitted) else [ans]
      ensures currentIndex == old(currentIndex) && timeLeft == old(timeLeft)
      ensures selected == old(selected) && tickPending == old(tickPending)
    {
      if answeredRef {
        return;
      }
      answeredRef := true;
      answered := true;
      emitted := emitted + [ans];
    }

    /** The confirm button is rendered. */
    predicate ConfirmShown()
      reads this
    {
      selected.Some? && !answered
    }

    /** Clicking the confirm button, `handleSubmit(selected)`: the emitted
        answer is the selected option, an index in 0..3. */
    method Confirm()
      requires Valid() && ConfirmShown()
      modifies this
      ensures Valid() && answeredRef && emitted == [old(selected)]
      ensures emitted[0].Some? && 0 <= emitted[0].value < |OptionLabels|
      ensures currentIndex == old(currentIndex) && timeLeft == old(timeLeft)
      ensures selected == old(selected) && tickPending == old(tickPending)
    {
      BankShape();
      HandleSubmit(selected);
    }
  }

  /** Question 0 left to run out and question 1 entered as the page does it:
      question 1 is locked without being answered and records `null`. */
  method TimeoutLocksNextQuestion() returns (t: QuestionTimer)
    ensures t.Valid() && t.currentIndex == 1 && t.timeLeft == TimerSeconds
    ensures t.answeredRef && t.emitted == [None]
  {
    t := new QuestionTimer(0);
    while !t.answeredRef
      invariant t.Valid() && t.currentIndex == 0
      invariant t.answeredRef ==> t.timeLeft == 0
      decreases t.timeLeft
    {
      t.Tick();
    }
    t.EnterQuestionAsWritten(1);
  }

  /** The same run with the intended reset: question 1 starts unlocked with a
      full countdown. */
  method TimeoutThenFreshQuestion() returns (t: QuestionTimer)
    ensures t.Valid() && t.currentIndex == 1 && t.timeLeft == TimerSeconds
    ensures !t.answeredRef && t.emitted == []
  {
    t := new QuestionTimer(0);
    while !t.answeredRef
      invariant t.Valid() && t.currentIndex == 0
      decreases t.timeLeft
    {
      t.Tick();
    }
    t.EnterQuestion(1);
  }

  /** Question 0 answered with the confirm button while the countdown shows
      one second, late enough that the tick still pending after the click
      fires before the 600 ms delayed `onAnswer` (otherwise the page
      re-renders first and the countdown effect's cleanup clears that tick);
      then question 1 entered as the page does it: the tick runs the
      countdown to 0, so question 1 is
      locked without being answered and records `null`, although question 0
      recorded the option picked. */
  method LateConfirmLocksNextQuestion() returns (t: QuestionTimer, first: seq<Option<int>>)
    ensures first == [Some(1)]
    ensures t.Valid() && t.currentIndex == 1 && t.timeLeft == TimerSeconds
    ensures t.answeredRef && t.emitted == [None]
  {
    t := LateConfirm();
    first := t.emitted;
    t.EnterQuestionAsWritten(1);
  }

  /** The same run with the intended reset: question 1 starts unlocked with a
      full countdown. */
  method LateConfirmThenFreshQuestion() returns (t: QuestionTimer, first: seq<Option<int>>)
    ensures first == [Some(1)]
    ensures t.Valid() && t.currentIndex == 1 && t.timeLeft == TimerSeconds
    ensures !t.answeredRef && t.emitted == []
  {
    t := LateConfirm();
    first := t.emitted;
    t.EnterQuestion(1);
  }

  /** Question 0 counted down to one second, option 1 clicked and confirmed,
      then the pending tick, which fires before `onAnswer` is called. */
  method LateConfirm() returns (t: QuestionTimer)
    ensures fresh(t) && t.Valid() && t.currentIndex == 0 && t.timeLeft == 0
    ensures t.answeredRef && t.emitted == [Some(1)]
  {
    t := new QuestionTimer(0);
    while t.timeLeft > 1
      invariant t.Valid() && t.currentIndex == 0 && t.selected == None
      invariant !t.answeredRef && t.tickPending && t.timeLeft >= 1
      decreases t.timeLeft
    {
      t.Tick();
    }
    BankShape();
    t.HandleOptionClick(1);
    t.Confirm();
    assert t.tickPending && t.timeLeft == 1;
    t.Tick();
  }
}

=== FILE: records.dfy ===
/** The row the persistence backend stores for one finished attempt
    (`QuizParticipant` of `src/lib/supabase-quiz.ts`). The backend calls
    themselves are not part of this model. */
module Records {

  /** A stored attempt as read back: `id` and `completedAt` are assigned by
      the backend; `answers` holds one option index per question, -1 for no
      answer. */
  datatype Participant = Participant(
    id: string,
    name: string,
    email: string,
    answers: seq<int>,
    score: int,
    totalQuestions: int,
    completionTime: int,
    completedAt: string)

  /** The ordering `fetchLeaderboard` asks the backend for and that the admin
      dashboard's comparator implements: `a` comes strictly before `b` when it
      has a higher score, or the same score and a shorter completion time. */
  predicate Outranks(a: Participant, b: Participant) {
    a.score > b.score || (a.score == b.score && a.completionTime < b.completionTime)
  }

  /** No later entry outranks an earlier one. */
  predicate InRankOrder(ps: seq<Participant>) {
    forall i, j :: 0 <= i < j < |ps| ==> !Outranks(ps[j], ps[i])
  }
}

=== FILE: registration.dfy ===
/** Field validation and normalisation of
    `src/components/quiz/RegistrationForm.tsx`. Whitespace is the ASCII
    whitespace that `trim()` and `\s` both strip; case folding is ASCII. */
module Registration {
  import opened Wrappers
  import Text

  /** ASCII whitespace: space, tab, line feed, vertical tab, form feed,
      carriage return. */
  predicate IsSpace(c: char) {
    c == ' ' || c == '\t' || c == '\n' || c == '\r' || c as int == 11 || c as int == 12
  }

  /** `s[lo..hi]` is all whitespace. */
  predicate SpaceRun(s: string, lo: int, hi: int)
    requires 0 <= lo <= hi <= |s|
  {
    forall i :: lo <= i < hi ==> IsSpace(s[i])
  }

  /** Nothing but whitespace (the empty string included). */
  predicate Blank(s: string) {
    SpaceRun(s, 0, |s|)
  }

  /** Drops leading whitespace. */
  function TrimStart(s: string): (r: string)
    ensures |r| <= |s|
    ensures r == [] || !IsSpace(r[0])
  {
    if |s| > 0 && IsSpace(s[0]) then TrimStart(s[1..]) else s
  }

  /** What `TrimStart` drops is whitespace, and what it keeps is a suffix. */
  lemma {:induction false} TrimStartSlice(s: string)
    ensures TrimStart(s) == s[|s| - |TrimStart(s)|..]
    ensures SpaceRun(s, 0, |s| - |TrimStart(s)|)
  {
    if |s| > 0 && IsSpace(s[0]) {
      TrimStartSlice(s[1..]);
      var k := |s| - |TrimStart(s)|;
      assert s[1..][k - 1..] == s[k..];
      forall i | 0 <= i < k ensures IsSpace(s[i]) {
        if i > 0 {
          assert s[i] == s[1..][i - 1];
        }
      }
    }
  }

  /** Drops trailing whitespace. */
  function TrimEnd(s: string): (r: string)
    ensures |r| <= |s|
    ensures r == [] || !IsSpace(r[|r| - 1])
  {
    if |s| > 0 && IsSpace(s[|s| - 1]) then TrimEnd(s[..|s| - 1]) else s
  }

  /** What `TrimEnd` drops is whitespace, and what it keeps is a prefix. */
  lemma {:induction false} TrimEndSlice(s: string)
    ensures TrimEnd(s) == s[..|TrimEnd(s)|]
    ensures SpaceRun(s, |TrimEnd(s)|, |s|)
  {
    if |s| > 0 && IsSpace(s[|s| - 1]) {
      var init := s[..|s| - 1];
      TrimEndSlice(init);
      var k := |TrimEnd(s)|;
      assert init[..k] == s[..k];
      forall i | k <= i < |s| ensures IsSpace(s[i]) {
        if i < |s| - 1 {
          assert s[i] == init[i];
        }
      }
    }
  }

  /** Number of leading whitespace characters. */
  function LeadingSpace(s: string): (n: nat)
    ensures n <= |s| && SpaceRun(s, 0, n) && (n == |s| || !IsSpace(s[n]))
  {
    TrimStartSlice(s);
    var n := |s| - |TrimStart(s)|;
    assert n < |s| ==> s[n] == TrimStart(s)[0];
    n
  }

  /** `s.trim()`: the part of `s` between its leading and trailing
      whitespace. */
  function Trim(s: string): (r: string)
    ensures r == [] <==> Blank(s)
    ensures r == [] || (!IsSpace(r[0]) && !IsSpace(r[|r| - 1]))
  {
    TrimFacts(s, TrimStart(s), TrimEnd(TrimStart(s)));
    TrimEnd(TrimStart(s))
  }

  lemma TrimFacts(s: string, t: string, r: string)
    requires t == TrimStart(s) && r == TrimEnd(t)
    ensures r == [] <==> Blank(s)
    ensures r == [] || (!IsSpace(r[0]) && !IsSpace(r[|r| - 1]))
  {
    TrimStartSlice(s);
    TrimEndSlice(t);
    if r != [] {
      assert r[0] == t[0];
    }
    if r == [] {
      NoSpaceHeadInBlank(t);
    }
    if t != [] {
      assert t[0] == s[|s| - |t|];
    }
  }

  /** A blank string whose first character is not whitespace is empty. */
  lemma NoSpaceHeadInBlank(t: string)
    requires SpaceRun(t, 0, |t|) && (t == [] || !IsSpace(t[0]))
    ensures t == []
  {
  }

  /** `s.trim()` is the slice of `s` that starts after its leading
      whitespace and is followed by nothing but whitespace. */
  lemma TrimSlice(s: string)
    ensures LeadingSpace(s) + |Trim(s)| <= |s|
    ensures Trim(s) == s[LeadingSpace(s)..LeadingSpace(s) + |Trim(s)|]
    ensures SpaceRun(s, LeadingSpace(s) + |Trim(s)|, |s|)
  {
    var t := TrimStart(s);
    var i := LeadingSpace(s);
    TrimStartSlice(s);
    assert t == s[i..];
    TrimEndSlice(t);
    assert Trim(s) == TrimEnd(t);
    SuffixSlice(s, i, |Trim(s)|);
  }

  /** Slicing a suffix is slicing the whole. */
  lemma SuffixSlice(s: string, i: nat, k: nat)
    requires i + k <= |s|
    ensures s[i..][..k] == s[i..i + k]
    ensures forall j :: i + k <= j < |s| ==> s[i..][j - i] == s[j]
  {
  }

  /** A string without whitespace at either end is its own trim. */
  lemma TrimUnchanged(s: string)
    requires s == [] || (!IsSpace(s[0]) && !IsSpace(s[|s| - 1]))
    ensures Trim(s) == s
  {
    if s != [] {
      assert TrimStart(s) == s;
      assert TrimEnd(s) == s;
    }
  }

  /** Trimming twice is trimming once. */
  lemma TrimIdempotent(s: string)
    ensures Trim(Trim(s)) == Trim(s)
  {
    TrimUnchanged(Trim(s));
  }

  /** ASCII `toLowerCase` of one character. */
  function LowerChar(c: char): (d: char)
    ensures IsSpace(d) <==> IsSpace(c)
    ensures d == '@' <==> c == '@'
    ensures d == '.' <==> c == '.'
    ensures !('A' <= d <= 'Z')
  {
    if 'A' <= c <= 'Z' then (c as int - 'A' as int + 'a' as int) as char else c
  }

  /** `s.toLowerCase()`, ASCII letters only. */
  function ToLower(s: string): (r: string)
    ensures |r| == |s| && forall i :: 0 <= i < |s| ==> r[i] == LowerChar(s[i])
  {
    if |s| == 0 then [] else [LowerChar(s[0])] + ToLower(s[1..])
  }

  lemma ToLowerAppend(a: string, b: string)
    ensures ToLower(a + b) == ToLower(a) + ToLower(b)
  {
    forall i | 0 <= i < |a + b| ensures ToLower(a + b)[i] == (ToLower(a) + ToLower(b))[i] {
      if i < |a| {
        assert (a + b)[i] == a[i];
      } else {
        assert (a + b)[i] == b[i - |a|];
      }
    }
  }

  /** `[^\s@]`. */
  predicate PlainChar(c: char) {
    !IsSpace(c) && c != '@'
  }

  /** `[^\s@]*`. */
  predicate AllPlain(p: string) {
    forall i :: 0 <= i < |p| ==> PlainChar(p[i])
  }

  /** `[^\s@]+`. */
  predicate Plain(p: string) {
    |p| > 0 && AllPlain(p)
  }

  /** The strings `^[^\s@]+@[^\s@]+\.[^\s@]+$` matches, read off the
      pattern: three runs of characters that are neither whitespace nor `@`,
      joined by `@` and then by a `.`. */
  ghost predicate MatchesEmailPattern(s: string) {
    exists l, x, y :: Plain(l) && Plain(x) && Plain(y) && s == l + "@" + x + "." + y
  }

  /** After the `@`: no whitespace or `@`, and a `.` that is neither its first
      nor its last character. */
  predicate Domain(d: string) {
    AllPlain(d) && exists k :: 0 < k < |d| - 1 && d[k] == '.'
  }

  /** The test the form runs on the untrimmed email: a non-empty local part
      up to the first `@`, then a domain. */
  predicate IsEmail(s: string) {
    match Text.FirstIndex(s, '@')
    case None => false
    case Some(a) => a > 0 && AllPlain(s[..a]) && Domain(s[a + 1..])
  }

  lemma IsEmailMatchesPattern(s: string)
    ensures IsEmail(s) <==> MatchesEmailPattern(s)
  {
    if IsEmail(s) {
      EmailSplits(s);
    }
    if MatchesEmailPattern(s) {
      var l, x, y :| Plain(l) && Plain(x) && Plain(y) && s == l + "@" + x + "." + y;
      PartsMakeEmail(l, x, y);
    }
  }

  /** The direction from the test to the pattern: the three runs are the part
      before the first `@` and the domain split at one of its dots. */
  lemma EmailSplits(s: string)
    requires IsEmail(s)
    ensures MatchesEmailPattern(s)
  {
    var a := Text.FirstIndex(s, '@').value;
    var d := s[a + 1..];
    var k :| 0 < k < |d| - 1 && d[k] == '.';
    var l, x, y := s[..a], d[..k], d[k + 1..];
    assert d == x + "." + y;
    assert s == l + "@" + x + "." + y;
    assert Plain(l) && Plain(x) && Plain(y);
  }

  /** The direction from the pattern to the test: the `@` after the local
      part is the first one, and what follows it is a domain. */
  lemma PartsMakeEmail(l: string, x: string, y: string)
    requires Plain(l) && Plain(x) && Plain(y)
    ensures IsEmail(l + "@" + x + "." + y)
  {
    var s := l + "@" + x + "." + y;
    assert '@' !in l by {
      forall i | 0 <= i < |l| ensures l[i] != '@' {
        assert PlainChar(l[i]);
      }
    }
    var d := x + "." + y;
    assert s == l + ['@'] + d;
    Text.FirstIndexAfter(l, '@', d);
    assert s[..|l|] == l;
    assert s[|l| + 1..] == d;
    DotJoinIsDomain(x, y);
  }

  lemma DotJoinIsDomain(x: string, y: string)
    requires Plain(x) && Plain(y)
    ensures Domain(x + "." + y)
  {
    var d := x + "." + y;
    assert d[|x|] == '.';
    forall i | 0 <= i < |d| ensures PlainChar(d[i]) {
      if i < |x| {
        assert d[i] == x[i];
      } else if i > |x| {
        assert d[i] == y[i - |x| - 1];
      }
    }
  }

  /** A string the pattern accepts has no whitespace at either end, so
      surrounding spaces make an email invalid. */
  lemma PatternHasNoOuterSpace(s: string)
    requires MatchesEmailPattern(s)
    ensures s != [] && !IsSpace(s[0]) && !IsSpace(s[|s| - 1])
    ensures Trim(s) == s
  {
    var l, x, y :| Plain(l) && Plain(x) && Plain(y) && s == l + "@" + x + "." + y;
    assert s[0] == l[0];
    assert s[|s| - 1] == y[|y| - 1];
    TrimUnchanged(s);
  }

  lemma PatternIsNotBlank(s: string)
    ensures MatchesEmailPattern(s) ==> !Blank(s) && Trim(s) == s
  {
    if MatchesEmailPattern(s) {
      PatternHasNoOuterSpace(s);
    }
  }

  /** Lower-casing an accepted email keeps it accepted. */
  lemma LowerKeepsPattern(s: string)
    requires MatchesEmailPattern(s)
    ensures MatchesEmailPattern(ToLower(s))
  {
    var l, x, y :| Plain(l) && Plain(x) && Plain(y) && s == l + "@" + x + "." + y;
    LowerOfParts(l, x, y);
    LowerKeepsPlain(l);
    LowerKeepsPlain(x);
    LowerKeepsPlain(y);
  }

  lemma LowerKeepsPlain(p: string)
    requires Plain(p)
    ensures Plain(ToLower(p))
  {
    forall i | 0 <= i < |p| ensures PlainChar(ToLower(p)[i]) {
      assert PlainChar(p[i]);
    }
  }

  lemma LowerOfParts(l: string, x: string, y: string)
    ensures ToLower(l + "@" + x + "." + y) == ToLower(l) + "@" + ToLower(x) + "." + ToLower(y)
  {
    ToLowerAppend(l + "@" + x + ".", y);
    ToLowerAppend(l + "@" + x, ".");
    ToLowerAppend(l + "@", x);
    ToLowerAppend(l, "@");
    assert ToLower("@") == "@";
    assert ToLower(".") == ".";
  }

  const NameRequired: string := "Name is required"
  const NameTooShort: string := "Name must be at least 2 characters"
  const EmailRequired: string := "Email is required"
  const EmailInvalid: string := "Please enter a valid email"

  /** The error record: a field without an error has no message. */
  datatype FieldErrors = FieldErrors(name: Option<string>, email: Option<string>) {
    predicate None() {
      name.None? && email.None?
    }
  }

  function NameError(name: string): Option<string> {
    if Trim(name) == "" then Some(NameRequired)
    else if |Trim(name)| < 2 then Some(NameTooShort)
    else None
  }

  function EmailError(email: string): Option<string> {
    if Trim(email) == "" then Some(EmailRequired)
    else if !IsEmail(email) then Some(EmailInvalid)
    else None
  }

  /** `validate()`: each field gets at most one message, chosen from that
      field alone, so both can be reported together. */
  function Validate(name: string, email: string): (errors: FieldErrors)
    ensures errors.name == None <==> |Trim(name)| >= 2
    ensures errors.name == Some(NameRequired) <==> Blank(name)
    ensures errors.name == Some(NameTooShort) <==> |Trim(name)| == 1
    ensures errors.email == None <==> MatchesEmailPattern(email)
    ensures errors.email == Some(EmailRequired) <==> Blank(email)
    ensures errors.email == Some(EmailInvalid) <==> !Blank(email) && !MatchesEmailPattern(email)
  {
    IsEmailMatchesPattern(email);
    PatternIsNotBlank(email);
    FieldErrors(NameError(name), EmailError(email))
  }

  /** A one-letter name is too short. */
  lemma ShortNameExample()
    ensures Validate("A", "foo").name == Some(NameTooShort)
  {
    TrimUnchanged("A");
  }

  /** Two letters are enough. */
  lemma TwoLetterNameExample()
    ensures Validate("Al", "foo").name == None
  {
    TrimUnchanged("Al");
  }

  /** Blank fields get the "required" messages, both at once. */
  lemma BlankFieldsExample()
    ensures Validate("   ", "  ") == FieldErrors(Some(NameRequired), Some(EmailRequired))
  {
    BlankSamples();
  }

  /** An address without `@` is invalid, and a plain address is valid. */
  lemma EmailExamples()
    ensures Validate("Al", "foo").email == Some(EmailInvalid)
    ensures Validate("Al", "foo@bar.com").email == None
  {
    FooIsNotEmail();
    SampleEmail();
  }

  /** The form tests the untrimmed value, so a leading space makes a valid
      address invalid. */
  lemma LeadingSpaceEmailExample()
    ensures Validate("Al", " foo@bar.com").email == Some(EmailInvalid)
  {
    var s := " foo@bar.com";
    NotBlankAt(s, 1);
    assert !MatchesEmailPattern(s) by {
      if MatchesEmailPattern(s) {
        PatternHasNoOuterSpace(s);
      }
    }
  }

  lemma NotBlankAt(s: string, i: nat)
    requires i < |s| && !IsSpace(s[i])
    ensures !Blank(s)
  {
  }

  lemma FooIsNotEmail()
    ensures !MatchesEmailPattern("foo")
  {
    var s := "foo";
    assert s[0] != '@' && s[1] != '@' && s[2] != '@';
    assert Text.FirstIndex(s, '@') == None;
    IsEmailMatchesPattern(s);
  }

  lemma BlankSamples()
    ensures Blank("   ") && Blank("  ")
  {
  }

  lemma SampleEmail()
    ensures MatchesEmailPattern("foo@bar.com")
  {
    assert "foo@bar.com" == "foo" + "@" + "bar" + "." + "com";
    assert Plain("foo") && Plain("bar") && Plain("com");
  }

  /** What `handleSubmit` hands to `onRegister` when validation passes: a
      trimmed name of at least two characters, and the email lower-cased; the
      email then still matches the pattern, and trimming it changed nothing. */
  lemma AcceptedValues(name: string, email: string)
    requires Validate(name, email).None()
    ensures |Trim(name)| >= 2 && Trim(Trim(name)) == Trim(name)
    ensures Trim(email) == email && MatchesEmailPattern(ToLower(Trim(email)))
  {
    TrimIdempotent(name);
    PatternHasNoOuterSpace(email);
    LowerKeepsPattern(email);
  }

  /** The form's state: the two inputs and the errors on display. */
  class RegistrationForm {
    var name: string
    var email: string
    var errors: FieldErrors

    /** A displayed error is the one the field's current value earns. */
    ghost predicate Valid()
      reads this
    {
      (errors.name.Some? ==> errors.name == Validate(name, email).name) &&
      (errors.email.Some? ==> errors.email == Validate(name, email).email)
    }

    constructor ()
      ensures Valid() && name == "" && email == "" && errors == FieldErrors(None, None)
    {
      name, email := "", "";
      errors := FieldErrors(None, None);
    }

    /** The name input's `onChange`: clears only the name error. */
    method EditName(value: string)
      requires Valid()
      modifies this
      ensures Valid() && name == value && email == old(email)
      ensures errors == old(errors).(name := None)
    {
      name := value;
      errors := errors.(name := None);
    }

    /** The email input's `onChange`: clears only the email error. */
    method EditEmail(value: string)
      requires Valid()
      modifies this
      ensures Valid() && email == value && name == old(name)
      ensures errors == old(errors).(email := None)
    {
      email := value;
      errors := errors.(email := None);
    }

    /** `handleSubmit`: with any error, shows them all and registers
        nothing; otherwise `registered` holds the arguments given to
        `onRegister`: the trimmed name and the trimmed, lower-cased email.
        When it registers, no stale error is on display. */
    method HandleSubmit() returns (registered: Option<(string, string)>)
      requires Valid()
      modifies this
      ensures Valid() && name == old(name) && email == old(email)
      ensures registered.Some? <==> Validate(name, email).None()
      ensures registered.Some? ==>
        registered.value == (Trim(name), ToLower(Trim(email))) &&
        errors == old(errors) && errors == FieldErrors(None, None)
      ensures registered.None? ==> errors == Validate(name, email)
    {
      var newErrors := Validate(name, email);
      if !newErrors.None() {
        errors := newErrors;
        return None;
      }
      registered := Some((Trim(name), ToLower(Trim(email))));
    }
  }
}

=== FILE: results.dfy ===
/** The figures and the answer review of
    `src/components/quiz/ResultsPage.tsx`: the percentage, the message tier,
    one review card per question with its option tags, and the top-scorer
    celebration. Layout and animation are not part of this model. */
module ResultsPage {
  import opened Wrappers
  import opened Questions
  import Session

  // ---------------------------------------------------------------------
  // Percentage and message
  // ---------------------------------------------------------------------

  /** `Math.round((score / total) * 100)`, as integer round-half-up:
      `floor(100 * score / total + 1/2)`. */
  function Pct(score: int, total: int): (pct: int)
    requires total > 0
    ensures 2 * total * pct - total <= 200 * score < 2 * total * pct + total
  {
    (200 * score + total) / (2 * total)
  }

  lemma MulMonotone(t: int, a: int, b: int)
    requires t >= 0 && a <= b
    ensures t * a <= t * b
  {
    assert t * b - t * a == t * (b - a);
  }

  /** A score between 0 and the total gives a percentage between 0 and 100. */
  lemma PctWithin(score: int, total: int)
    requires total > 0 && 0 <= score <= total
    ensures 0 <= Pct(score, total) <= 100
  {
    var pct := Pct(score, total);
    if pct < 0 {
      MulMonotone(2 * total, pct, -1);
    }
    if pct > 100 {
      MulMonotone(2 * total, 101, pct);
      MulMonotone(200, score, total);
    }
  }

  /** A higher score never shows a lower percentage. */
  lemma PctMonotone(a: int, b: int, total: int)
    requires total > 0 && a <= b
    ensures Pct(a, total) <= Pct(b, total)
  {
    var p, q := Pct(a, total), Pct(b, total);
    if p > q {
      MulMonotone(2 * total, q + 1, p);
    }
  }

  /** With the ten-question bank every score is an exact multiple of 10. */
  lemma PctOfTen(score: int)
    ensures Pct(score, 10) == 10 * score
  {
    var pct := Pct(score, 10);
    assert 20 * pct - 10 <= 200 * score < 20 * pct + 10;
  }

  /** The four messages `getMessage` chooses from. */
  datatype Tier = Outstanding | GreatJob | GoodEffort | KeepPracticing

  /** `getMessage`: the first threshold the percentage reaches. */
  function TierOf(pct: int): (t: Tier)
    ensures t == Outstanding <==> pct >= 90
    ensures t == GreatJob <==> 70 <= pct < 90
    ensures t == GoodEffort <==> 50 <= pct < 70
    ensures t == KeepPracticing <==> pct < 50
  {
    if pct >= 90 then Outstanding
    else if pct >= 70 then GreatJob
    else if pct >= 50 then GoodEffort
    else KeepPracticing
  }

  /** Position of a tier from the lowest (0) to the highest (3). */
  function Level(t: Tier): nat {
    match t
    case KeepPracticing => 0
    case GoodEffort => 1
    case GreatJob => 2
    case Outstanding => 3
  }

  /** A higher percentage never gets a lower message. */
  lemma TierMonotone(p: int, q: int)
    requires p <= q
    ensures Level(TierOf(p)) <= Level(TierOf(q))
  {
  }

  /** The heading and the line under it. */
  function Message(t: Tier): (text: (string, string)) {
    match t
    case Outstanding => ("Outstanding! \U{1F389}", "You're a cloud computing expert!")
    case GreatJob => ("Great job! \U{1F44F}", "You have solid cloud knowledge.")
    case GoodEffort => ("Good effort! \U{1F4AA}", "Keep learning and try again.")
    case KeepPracticing => ("Keep practicing! \U{1F4DA}", "Review the answers below and try again.")
  }

  /** Each tier has its own heading. */
  lemma MessagesDistinct(t: Tier, u: Tier)
    requires t != u
    ensures Message(t).0 != Message(u).0
  {
    assert Message(t).0[1] != Message(u).0[1];
  }

  /** Over the ten-question bank: 9 or 10 right is outstanding, 7 or 8 great,
      5 or 6 a good effort, fewer keep practising. */
  lemma TierOfScore(score: int)
    requires 0 <= score <= |QuizQuestions|
    ensures TierOf(Pct(score, |QuizQuestions|)) ==
      if score >= 9 then Outstanding
      else if score >= 7 then GreatJob
      else if score >= 5 then GoodEffort
      else KeepPracticing
  {
    BankShape();
    PctOfTen(score);
  }

  // ---------------------------------------------------------------------
  // Answer review
  // ---------------------------------------------------------------------

  /** `userAnswers[qi]`: an answer or `null`, or `undefined` past the end of
      the array. */
  datatype Given = Undefined | Given(answer: Option<int>)

  function Lookup(answers: seq<Option<int>>, qi: nat): (g: Given)
    ensures g.Given? <==> qi < |answers|
    ensures qi < |answers| ==> g.answer == answers[qi]
  {
    if qi < |answers| then Given(answers[qi]) else Undefined
  }

  /** `userAns === null`. */
  predicate Skipped(g: Given) {
    g == Given(None)
  }

  /** `oi === userAns`: only a number equals an option index. */
  predicate Picked(g: Given, oi: int) {
    g == Given(Some(oi))
  }

  /** The three highlight styles of an option row. */
  datatype Style = KeyStyle | WrongStyle | PlainStyle

  /** One option row: its letter, its text, its style and which of the
      "✓ Correct", "Your answer" and "Skipped" tags it carries. */
  datatype OptionRow = OptionRow(
    letter: string,
    text: string,
    style: Style,
    correctMark: bool,
    yourAnswer: bool,
    skippedMark: bool)

  /** A review card: the question, whether it was answered correctly (green
      border and check icon, otherwise red and a cross) and its option rows. */
  datatype Card = Card(question: string, correct: bool, options: seq<OptionRow>)

  function RowOf(q: Question, g: Given, oi: nat): OptionRow
    requires WellFormed(q) && oi < |q.options|
  {
    var isCorrectOpt := oi == q.correctAnswer;
    var isUserOpt := Picked(g, oi);
    OptionRow(
      OptionLabels[oi],
      q.options[oi],
      if isCorrectOpt then KeyStyle else if isUserOpt && !isCorrectOpt then WrongStyle else PlainStyle,
      isCorrectOpt,
      isUserOpt && !isCorrectOpt,
      Skipped(g) && isCorrectOpt)
  }

  function ReviewCard(q: Question, g: Given): (card: Card)
    requires WellFormed(q)
    ensures card.question == q.question && |card.options| == |q.options|
    ensures forall oi :: 0 <= oi < |q.options| ==>
      card.options[oi].letter == OptionLabels[oi] && card.options[oi].text == q.options[oi]
  {
    Card(q.question, g == Given(Some(q.correctAnswer)),
      seq(|q.options|, oi requires 0 <= oi < |q.options| => RowOf(q, g, oi)))
  }

  /** The tags of a card:
      - a skipped question is not correct;
      - "✓ Correct" is on the key option and nowhere else;
      - "Your answer" is only on the option picked, when it is not the key,
        and some option has it exactly when a wrong option was picked;
      - "Skipped" is only on the key option of an unanswered question, and
        is there whenever the question was skipped;
      - for an answer that is one of the options, the card is correct
        exactly when no option carries "Your answer". */
  lemma CardTags(q: Question, g: Given)
    requires WellFormed(q)
    ensures Skipped(g) ==> !ReviewCard(q, g).correct
    ensures ReviewCard(q, g).correct <==> Picked(g, q.correctAnswer)
    ensures forall oi :: 0 <= oi < |q.options| ==>
      (ReviewCard(q, g).options[oi].correctMark <==> oi == q.correctAnswer)
    ensures forall oi :: 0 <= oi < |q.options| && ReviewCard(q, g).options[oi].yourAnswer ==>
      Picked(g, oi) && oi != q.correctAnswer && !ReviewCard(q, g).options[oi].correctMark
    ensures (exists oi :: 0 <= oi < |q.options| && ReviewCard(q, g).options[oi].yourAnswer) <==>
      g.Given? && g.answer.Some? && g.answer.value != q.correctAnswer && 0 <= g.answer.value < |q.options|
    ensures forall oi :: 0 <= oi < |q.options| && ReviewCard(q, g).options[oi].skippedMark ==>
      Skipped(g) && oi == q.correctAnswer
    ensures Skipped(g) ==> ReviewCard(q, g).options[q.correctAnswer].skippedMark
    ensures g.Given? && g.answer.Some? && 0 <= g.answer.value < |q.options| ==>
      (ReviewCard(q, g).correct <==>
        forall oi :: 0 <= oi < |q.options| ==> !ReviewCard(q, g).options[oi].yourAnswer)
  {
    var card := ReviewCard(q, g);
    if g.Given? && g.answer.Some? && g.answer.value != q.correctAnswer && 0 <= g.answer.value < |q.options| {
      assert card.options[g.answer.value].yourAnswer;
    }
  }

  /** `quizQuestions.map(...)`: one card per question, in bank order. */
  function Cards(answers: seq<Option<int>>, bank: seq<Question>): (cards: seq<Card>)
    requires forall i :: 0 <= i < |bank| ==> WellFormed(bank[i])
    ensures |cards| == |bank|
    ensures forall qi :: 0 <= qi < |bank| ==> cards[qi] == ReviewCard(bank[qi], Lookup(answers, qi))
  {
    seq(|bank|, qi requires 0 <= qi < |bank| => ReviewCard(bank[qi], Lookup(answers, qi)))
  }

  /** Number of cards marked correct. */
  function CorrectCards(cards: seq<Card>): nat {
    if |cards| == 0 then 0
    else CorrectCards(cards[..|cards| - 1]) + (if cards[|cards| - 1].correct then 1 else 0)
  }

  lemma {:induction false} CorrectCardsPrefix(answers: seq<Option<int>>, bank: seq<Question>, k: nat)
    requires forall i :: 0 <= i < |bank| ==> WellFormed(bank[i])
    requires |answers| == |bank| && k <= |bank|
    ensures CorrectCards(Cards(answers, bank)[..k]) == Session.CountCorrect(answers[..k], bank)
  {
    if k > 0 {
      var cards := Cards(answers, bank);
      CorrectCardsPrefix(answers, bank, k - 1);
      assert cards[..k][..k - 1] == cards[..k - 1];
      assert answers[..k][..k - 1] == answers[..k - 1];
    }
  }

  /** The cards marked correct are as many as the score the session kept,
      once every question has an answer. */
  lemma CorrectCardsAreScore(answers: seq<Option<int>>, bank: seq<Question>)
    requires forall i :: 0 <= i < |bank| ==> WellFormed(bank[i])
    requires |answers| == |bank|
    ensures CorrectCards(Cards(answers, bank)) == Session.CountCorrect(answers, bank)
  {
    CorrectCardsPrefix(answers, bank, |bank|);
    assert Cards(answers, bank)[..|bank|] == Cards(answers, bank);
    assert answers[..|bank|] == answers;
  }

  // ---------------------------------------------------------------------
  // Top-scorer celebration
  // ---------------------------------------------------------------------

  /** What the hero shows for the optional `isTopScorer` prop: confetti
      (`active={isTopScorer === true}`) and the "Top Scorer!" banner
      (`{isTopScorer && ...}`, shown for a truthy value). */
  datatype Celebration = Celebration(confetti: bool, banner: bool)

  function CelebrationOf(isTopScorer: Option<bool>): (c: Celebration)
    ensures c.confetti == c.banner
    ensures c.confetti <==> isTopScorer == Some(true)
  {
    Celebration(isTopScorer == Some(true), isTopScorer.Some? && isTopScorer.value)
  }
}

=== FILE: session.dfy ===
/** The session driver of `src/pages/Index.tsx`: the screen the app is on,
    the answers collected so far, the running score, and what is handed to
    the persistence backend after the last question. */
module Session {
  import opened Wrappers
  import opened Questions
  import opened Records

  /** `Stage`: which screen is shown. */
  datatype Stage = Landing | Register | Quiz | Results | Leaderboard | Admin

  /** The screen changes the page can make, one per handler it wires up. */
  predicate Move(from: Stage, to: Stage) {
    match (from, to)
    case (Landing, Register) => true     // LandingPage onStart
    case (Landing, Admin) => true        // admin button
    case (Register, Quiz) => true        // handleRegister
    case (Quiz, Results) => true         // handleAnswer on the last question
    case (Results, Leaderboard) => true  // onViewLeaderboard
    case (Results, Register) => true     // handleRetake
    case (Leaderboard, Results) => true  // LeaderboardPage onBack
    case (Admin, Landing) => true        // AdminDashboard onBack
    case _ => false
  }

  /** A sequence of screens the page can go through from its initial one. */
  ghost predicate Run(path: seq<Stage>) {
    |path| > 0 && path[0] == Landing &&
    forall i :: 0 <= i < |path| - 1 ==> Move(path[i], path[i + 1])
  }

  /** The results screen is never shown before a quiz has been taken. */
  lemma {:induction false} ResultsOnlyAfterQuiz(path: seq<Stage>, k: nat)
    requires Run(path) && k < |path| && path[k] == Results
    ensures exists j :: 0 <= j < k && path[j] == Quiz
    decreases k
  {
    assert k > 0;
    assert Move(path[k - 1], path[k]);
    if path[k - 1] != Quiz {
      assert path[k - 1] == Leaderboard;
      assert k - 1 > 0;
      assert Move(path[k - 2], path[k - 1]);
      ResultsOnlyAfterQuiz(path, k - 2);
    }
  }

  /** Number of positions `i` whose answer is `quizQuestions[i].correctAnswer`;
      a missing answer (`null`) never matches. */
  function CountCorrect(answers: seq<Option<int>>, bank: seq<Question>): (n: nat)
    requires |answers| <= |bank|
    ensures n <= |answers|
  {
    if |answers| == 0 then 0
    else
      var last := |answers| - 1;
      CountCorrect(answers[..last], bank) + (if answers[last] == Some(bank[last].correctAnswer) then 1 else 0)
  }

  /** Appending one answer adds one to the count exactly when it is the key. */
  lemma CountAppend(answers: seq<Option<int>>, a: Option<int>, bank: seq<Question>)
    requires |answers| < |bank|
    ensures CountCorrect(answers + [a], bank) ==
      CountCorrect(answers, bank) + (if a == Some(bank[|answers|].correctAnswer) then 1 else 0)
  {
    assert (answers + [a])[..|answers|] == answers;
  }

  /** The positions answered correctly. */
  ghost function CorrectPositions(answers: seq<Option<int>>, bank: seq<Question>): set<nat>
    requires |answers| <= |bank|
  {
    set i: nat | i < |answers| && answers[i] == Some(bank[i].correctAnswer)
  }

  /** The running score is the number of correctly answered positions. */
  lemma {:induction false} CountIsCorrectPositions(answers: seq<Option<int>>, bank: seq<Question>)
    requires |answers| <= |bank|
    ensures CountCorrect(answers, bank) == |CorrectPositions(answers, bank)|
  {
    if |answers| > 0 {
      var last := |answers| - 1;
      var front := answers[..last];
      CountIsCorrectPositions(front, bank);
      var a, b := CorrectPositions(answers, bank), CorrectPositions(front, bank);
      if answers[last] == Some(bank[last].correctAnswer) {
        assert a == b + {last};
      } else {
        assert a == b;
      }
    }
  }

  /** Answering every position with its key scores one point per answer. */
  lemma {:induction false} AllCorrectScoresFull(answers: seq<Option<int>>, bank: seq<Question>)
    requires |answers| <= |bank|
    requires forall i :: 0 <= i < |answers| ==> answers[i] == Some(bank[i].correctAnswer)
    ensures CountCorrect(answers, bank) == |answers|
  {
    if |answers| > 0 {
      AllCorrectScoresFull(answers[..|answers| - 1], bank);
    }
  }

  /** A full score means every position was answered with its key. */
  lemma {:induction false} FullScoreAllCorrect(answers: seq<Option<int>>, bank: seq<Question>)
    requires |answers| <= |bank|
    requires CountCorrect(answers, bank) == |answers|
    ensures forall i :: 0 <= i < |answers| ==> answers[i] == Some(bank[i].correctAnswer)
  {
    if |answers| > 0 {
      var last := |answers| - 1;
      var front := answers[..last];
      FullScoreAllCorrect(front, bank);
      forall i | 0 <= i < |answers| ensures answers[i] == Some(bank[i].correctAnswer) {
        if i < last {
          assert front[i] == answers[i];
        }
      }
    }
  }

  /** The answers a participant gives when every pick is the key. */
  function KeyAnswers(bank: seq<Question>): (answers: seq<Option<int>>)
    ensures |answers| == |bank|
    ensures forall i :: 0 <= i < |bank| ==> answers[i] == Some(bank[i].correctAnswer)
  {
    if |bank| == 0 then [] else KeyAnswers(bank[..|bank| - 1]) + [Some(bank[|bank| - 1].correctAnswer)]
  }

  /** A perfect run over the real bank scores 10. */
  lemma PerfectRun()
    ensures CountCorrect(KeyAnswers(QuizQuestions), QuizQuestions) == 10
  {
    AllCorrectScoresFull(KeyAnswers(QuizQuestions), QuizQuestions);
  }

  /** Questions 0 to 8 answered correctly and question 9 left to time out
      scores 9. */
  lemma NineRightThenTimeout()
    ensures var answers := KeyAnswers(QuizQuestions)[..9] + [None];
      |answers| == 10 && answers[9] == None && CountCorrect(answers, QuizQuestions) == 9
  {
    var answers := KeyAnswers(QuizQuestions)[..9] + [None];
    assert answers[..9] == KeyAnswers(QuizQuestions)[..9];
    AllCorrectScoresFull(answers[..9], QuizQuestions);
  }

  /** `answers.map((a) => a ?? -1)`: the answers as submitted. */
  function Encode(answers: seq<Option<int>>): (codes: seq<int>)
    ensures |codes| == |answers|
    ensures forall i :: 0 <= i < |answers| ==>
      codes[i] == match answers[i] case None => -1 case Some(k) => k
  {
    if |answers| == 0 then []
    else [match answers[0] case None => -1 case Some(k) => k] + Encode(answers[1..])
  }

  /** Reads submitted answers back: -1 stands for no answer. */
  function Decode(codes: seq<int>): (answers: seq<Option<int>>)
    ensures |answers| == |codes|
  {
    if |codes| == 0 then [] else [if codes[0] == -1 then None else Some(codes[0])] + Decode(codes[1..])
  }

  /** Nothing is lost in submission as long as every pick is an option index. */
  lemma {:induction false} DecodeEncode(answers: seq<Option<int>>)
    requires forall i :: 0 <= i < |answers| && answers[i].Some? ==> answers[i].value >= 0
    ensures Decode(Encode(answers)) == answers
  {
    if |answers| > 0 {
      DecodeEncode(answers[1..]);
      assert Encode(answers)[1..] == Encode(answers[1..]);
    }
  }

  /** `Math.round((Date.now() - startTimeRef.current) / 1000)`: the nearest
      whole second, halves rounded up. */
  function ElapsedSeconds(startMs: int, nowMs: int): (s: int)
    ensures 1000 * s - 500 <= nowMs - startMs < 1000 * s + 500
  {
    (nowMs - startMs + 500) / 1000
  }

  /** What `submitQuizResult` is called with. */
  datatype Submission = Submission(
    name: string,
    email: string,
    answers: seq<int>,
    score: int,
    totalQuestions: int,
    completionTime: int)

  /** `lb.length > 0 && lb[0].id === result?.id`. */
  predicate LeadsBoard(submittedId: Option<string>, board: seq<Participant>) {
    |board| > 0 && submittedId == Some(board[0].id)
  }

  /** The page's state. `startTime` is `startTimeRef.current`, in
      milliseconds; the clock readings come in as parameters. */
  class Session {
    /** The question bank the page was built with (`quizQuestions`). */
    const bank: seq<Question>
    var stage: Stage
    var name: string
    var email: string
    var currentIndex: nat
    var userAnswers: seq<Option<int>>
    var score: int
    var completionTime: int
    var submittedId: Option<string>
    var isTopScorer: bool
    var startTime: int

    /** Invariant of the page: the score counts the correct answers so far;
        during the quiz one answer has been collected per question already
        passed; on the results and leaderboard screens every question has an
        answer. */
    ghost predicate Valid()
      reads this
    {
      |bank| > 0 && |userAnswers| <= |bank| &&
      score == CountCorrect(userAnswers, bank) &&
      (stage == Quiz ==> |userAnswers| == currentIndex < |bank|) &&
      (stage == Results || stage == Leaderboard ==> |userAnswers| == |bank|) &&
      (stage == Landing || stage == Admin ==> userAnswers == [])
    }

    /** Everything but the stage is as it was. */
    twostate predicate OnlyStageChanged()
      reads this
    {
      name == old(name) && email == old(email) && currentIndex == old(currentIndex) &&
      userAnswers == old(userAnswers) && score == old(score) &&
      completionTime == old(completionTime) && submittedId == old(submittedId) &&
      isTopScorer == old(isTopScorer) && startTime == old(startTime)
    }

    /** The initial `useState` values. */
    constructor ()
      ensures Valid() && stage == Landing && bank == QuizQuestions
      ensures name == "" && email == "" && currentIndex == 0 && userAnswers == [] && score == 0
      ensures completionTime == 0 && submittedId == None && !isTopScorer && startTime == 0
    {
      bank := QuizQuestions;
      stage := Landing;
      name, email := "", "";
      currentIndex, userAnswers, score := 0, [], 0;
      completionTime, submittedId, isTopScorer := 0, None, false;
      startTime := 0;
    }

    /** The landing page's start button. */
    method Start()
      requires Valid() && stage == Landing
      modifies this
      ensures Valid() && stage == Register && Move(old(stage), stage) && OnlyStageChanged()
    {
      stage := Register;
    }

    /** The landing page's admin button. */
    method OpenAdmin()
      requires Valid() && stage == Landing
      modifies this
      ensures Valid() && stage == Admin && Move(old(stage), stage) && OnlyStageChanged()
    {
      stage := Admin;
    }

    /** The admin dashboard's back button. */
    method CloseAdmin()
      requires Valid() && stage == Admin
      modifies this
      ensures Valid() && stage == Landing && Move(old(stage), stage) && OnlyStageChanged()
    {
      stage := Landing;
    }

    /** `handleRegister(n, e)`, called by the registration form once it has
        validated its fields; `nowMs` is `Date.now()`. It also clears the
        top-scorer flag, so that the results of this attempt celebrate only
        this attempt (see `HandleRegisterAsWritten`). The previous attempt's
        `completionTime` and `submittedId` are kept until this attempt
        replaces them. */
    method HandleRegister(n: string, e: string, nowMs: int)
      requires Valid() && stage == Register
      modifies this
      ensures Valid() && stage == Quiz && Move(old(stage), stage)
      ensures name == n && email == e && startTime == nowMs
      ensures currentIndex == 0 && userAnswers == [] && score == 0 && !isTopScorer
      ensures completionTime == old(completionTime) && submittedId == old(submittedId)
    {
      HandleRegisterAsWritten(n, e, nowMs);
      isTopScorer := false;
    }

    /** `handleRegister(n, e)` as the page runs it: nothing resets
        `isTopScorer`, so once one attempt has led the leaderboard every
        later attempt in the same page shows the top-scorer banner. */
    method HandleRegisterAsWritten(n: string, e: string, nowMs: int)
      requires Valid() && stage == Register
      modifies this
      ensures Valid() && stage == Quiz && Move(old(stage), stage)
      ensures name == n && email == e && startTime == nowMs
      ensures currentIndex == 0 && userAnswers == [] && score == 0
      ensures completionTime == old(completionTime) && submittedId == old(submittedId)
      ensures isTopScorer == old(isTopScorer)
    {
      name, email := n, e;
      currentIndex := 0;
      userAnswers := [];
      score := 0;
      startTime := nowMs;
      stage := Quiz;
    }

    /** `handleAnswer(selectedIndex)`, called by the quiz screen once per
        question. On the last question it submits the attempt (`submitReply`
        is what `submitQuizResult` resolves with, or `Fails` when it throws),
        then reads the leaderboard (`boardReply`, read only when the submit
        did not throw) to decide the top-scorer badge; any failure is
        swallowed and the results screen is shown regardless. `sent` is the
        argument given to `submitQuizResult`, if it was called. */
    method HandleAnswer(selectedIndex: Option<int>, nowMs: int,
                        submitReply: Reply<Option<string>>, boardReply: Reply<seq<Participant>>)
      returns (sent: Option<Submission>)
      requires Valid() && stage == Quiz
      modifies this
      ensures Valid() && (stage == old(stage) || Move(old(stage), stage))
      ensures userAnswers == old(userAnswers) + [selectedIndex]
      ensures score == old(score) +
        (if selectedIndex == Some(bank[old(currentIndex)].correctAnswer) then 1 else 0)
      ensures name == old(name) && email == old(email) && startTime == old(startTime)
      ensures old(currentIndex) + 1 < |bank| ==>
        stage == Quiz && currentIndex == old(currentIndex) + 1 && sent == None &&
        completionTime == old(completionTime) && submittedId == old(submittedId) &&
        isTopScorer == old(isTopScorer)
      ensures old(currentIndex) + 1 >= |bank| ==>
        stage == Results && currentIndex == old(currentIndex) &&
        |userAnswers| == |bank| &&
        completionTime == ElapsedSeconds(startTime, nowMs) &&
        sent == Some(Submission(name, email, Encode(userAnswers), score, |bank|, completionTime)) &&
        submittedId == (if submitReply.Returns? && submitReply.value.Some? then submitReply.value
                        else old(submittedId)) &&
        isTopScorer == (old(isTopScorer) ||
          (submitReply.Returns? && boardReply.Returns? && LeadsBoard(submitReply.value, boardReply.value)))
    {
      var isCorrect := selectedIndex == Some(bank[currentIndex].correctAnswer);
      var newAnswers := userAnswers + [selectedIndex];
      var newScore := score + (if isCorrect then 1 else 0);
      CountAppend(userAnswers, selectedIndex, bank);

      userAnswers := newAnswers;
      score := newScore;

      if currentIndex + 1 >= |bank| {
        var submission := Submit(nowMs, submitReply, boardReply);
        sent := Some(submission);
        stage := Results;
      } else {
        sent := None;
        currentIndex := currentIndex + 1;
      }
    }

    /** The last question's `try` block: records the elapsed time, sends the
        attempt, keeps the id the backend returns, and raises the top-scorer
        flag when the leaderboard read afterwards starts with that id. A
        failure of either call ends the block early and leaves the fields it
        had not reached yet as they were. */
    method Submit(nowMs: int, submitReply: Reply<Option<string>>, boardReply: Reply<seq<Participant>>)
      returns (submission: Submission)
      modifies this
      ensures completionTime == ElapsedSeconds(startTime, nowMs)
      ensures submission == Submission(name, email, Encode(userAnswers), score, |bank|, completionTime)
      ensures submittedId == (if submitReply.Returns? && submitReply.value.Some? then submitReply.value
                              else old(submittedId))
      ensures isTopScorer == (old(isTopScorer) ||
        (submitReply.Returns? && boardReply.Returns? && LeadsBoard(submitReply.value, boardReply.value)))
      ensures stage == old(stage) && name == old(name) && email == old(email)
      ensures currentIndex == old(currentIndex) && userAnswers == old(userAnswers)
      ensures score == old(score) && startTime == old(startTime)
    {
      var elapsed := ElapsedSeconds(startTime, nowMs);
      completionTime := elapsed;
      submission := Submission(name, email, Encode(userAnswers), score, |bank|, elapsed);
      match submitReply {
        case Fails =>
        case Returns(result) =>
          if result.Some? {
            submittedId := result;
          }
          match boardReply {
            case Fails =>
            case Returns(lb) =>
              if LeadsBoard(result, lb) {
                isTopScorer := true;
              }
          }
      }
    }

    /** `handleRetake`. */
    method HandleRetake()
      requires Valid() && stage == Results
      modifies this
      ensures Valid() && stage == Register && Move(old(stage), stage) && OnlyStageChanged()
    {
      stage := Register;
    }

    /** The results page's leaderboard button. */
    method ViewLeaderboard()
      requires Valid() && stage == Results
      modifies this
      ensures Valid() && stage == Leaderboard && Move(old(stage), stage) && OnlyStageChanged()
    {
      stage := Leaderboard;
    }

    /** The leaderboard page's back button. */
    method BackToResults()
      requires Valid() && stage == Leaderboard
      modifies this
      ensures Valid() && stage == Results && Move(old(stage), stage) && OnlyStageChanged()
    {
      stage := Results;
    }
  }

  /** A participant whose attempt led the leaderboard retakes the quiz, and
      the retake is stored as `"retake"` while the board read afterwards is
      led by another entry `leader`. As the page is written, the results of
      the retake still show the top-scorer banner. */
  method StaleBannerAfterRetake(s: Session, leader: Participant) returns (board: seq<Participant>)
    requires s.Valid() && s.stage == Results && s.isTopScorer && leader.id != "retake"
    modifies s
    ensures s.Valid() && s.stage == Results && s.submittedId == Some("retake")
    ensures !LeadsBoard(s.submittedId, board) && s.isTopScorer
  {
    board := [leader];
    s.HandleRetake();
    s.HandleRegisterAsWritten(s.name, s.email, 0);
    while s.stage == Quiz
      invariant s.Valid() && (s.stage == Quiz || s.stage == Results)
      invariant s.stage == Results ==> s.submittedId == Some("retake")
      invariant s.isTopScorer
      decreases |s.bank| - |s.userAnswers|
    {
      var sent := s.HandleAnswer(None, 0, Returns(Some("retake")), Returns(board));
    }
  }

  /** The same retake with the flag cleared on registration: no banner,
      because the retake does not lead the board. */
  method NoBannerAfterRetake(s: Session, leader: Participant) returns (board: seq<Participant>)
    requires s.Valid() && s.stage == Results && s.isTopScorer && leader.id != "retake"
    modifies s
    ensures s.Valid() && s.stage == Results && s.submittedId == Some("retake")
    ensures !LeadsBoard(s.submittedId, board) && !s.isTopScorer
  {
    board := [leader];
    s.HandleRetake();
    s.HandleRegister(s.name, s.email, 0);
    while s.stage == Quiz
      invariant s.Valid() && (s.stage == Quiz || s.stage == Results)
      invariant s.stage == Results ==> s.submittedId == Some("retake")
      invariant !s.isTopScorer
      decreases |s.bank| - |s.userAnswers|
    {
      var sent := s.HandleAnswer(None, 0, Returns(Some("retake")), Returns(board));
    }
  }
}

=== FILE: text.dfy ===
/** Character-sequence helpers used by several components. */
module Text {
  import opened Wrappers

  /** Index of the first occurrence of `c` in `s`, like `indexOf`. */
  function FirstIndex(s: string, c: char): (r: Option<nat>)
    ensures r.None? <==> c !in s
    ensures r.Some? ==> r.value < |s| && s[r.value] == c && c !in s[..r.value]
  {
    if |s| == 0 then None
    else if s[0] == c then Some(0)
    else
      match FirstIndex(s[1..], c)
      case None => None
      case Some(k) => Some(k + 1)
  }

  /** When `c` does not occur in `p`, the first `c` of `p + [c] + q` is at `|p|`. */
  lemma {:induction false} FirstIndexAfter(p: string, c: char, q: string)
    requires c !in p
    ensures FirstIndex(p + [c] + q, c) == Some(|p|)
  {
    var s := p + [c] + q;
    assert s[|p|] == c;
    assert forall i :: 0 <= i < |p| ==> s[i] == p[i];
  }
}

=== FILE: time_format.dfy ===
/** `formatTime(seconds)`, written out identically in the admin dashboard,
    the results page and the leaderboard page. */
module TimeFormat {
  import opened Wrappers
  import opened Decimal
  import Text

  /** JavaScript's `%`: the remainder of the division truncated toward
      zero, so it differs from `a` by a multiple of `b`, is smaller than `b`
      in magnitude and takes the sign of the dividend. */
  function JsRem(a: int, b: int): (r: int)
    requires b > 0
    ensures (a - r) % b == 0
    ensures -b < r < b
    ensures a >= 0 ==> r >= 0
    ensures a <= 0 ==> r <= 0
  {
    if a >= 0 then
      RemainderLeavesMultiple(a, b);
      a % b
    else
      NegatedRemainderLeavesMultiple(-a, b);
      -((-a) % b)
  }

  /** A multiple of `b` leaves no remainder. */
  lemma MultipleMod(k: int, b: int)
    requires b > 0
    ensures (k * b) % b == 0
  {
    var q, r := (k * b) / b, (k * b) % b;
    assert b * (k - q) == r;
    if k - q >= 1 {
    } else if k - q <= -1 {
    }
  }

  lemma RemainderLeavesMultiple(n: nat, b: int)
    requires b > 0
    ensures (n - n % b) % b == 0
  {
    MultipleMod(n / b, b);
    assert n - n % b == (n / b) * b;
  }

  lemma NegatedRemainderLeavesMultiple(n: nat, b: int)
    requires b > 0
    ensures (n % b - n) % b == 0
  {
    MultipleMod(-(n / b), b);
    assert n % b - n == (-(n / b)) * b;
  }

  /** `m = Math.floor(seconds / 60)`, `s = seconds % 60`, then `"Mm Ss"` when
      `m > 0` and `"Ss"` otherwise. */
  function FormatTime(seconds: int): string {
    var m := seconds / 60;
    var s := JsRem(seconds, 60);
    if m > 0 then IntToString(m) + "m " + IntToString(s) + "s" else IntToString(s) + "s"
  }

  /** For a non-negative duration the printed minutes and seconds are the
      quotient and remainder by 60, and the minutes are printed exactly when
      there is at least one whole minute. */
  lemma FormatTimeSplit(n: nat)
    ensures var m, s := n / 60, n % 60;
      60 * m + s == n && 0 <= s < 60 &&
      FormatTime(n) == (if m > 0 then NatToString(m) + "m " else "") + NatToString(s) + "s" &&
      (m > 0 <==> n >= 60)
  {
  }

  /** Reads a duration printed by `FormatTime` back into seconds. */
  function ReadTime(t: string): Option<nat> {
    if |t| < 2 || t[|t| - 1] != 's' then None else ReadAmount(t[..|t| - 1])
  }

  /** `"M" + "m " + "S"` or `"S"`, each part a numeral. */
  function ReadAmount(body: string): Option<nat> {
    match Text.FirstIndex(body, 'm')
    case None => if AllDigits(body) then Some(ParseNat(body)) else None
    case Some(k) =>
      if k + 1 < |body| && body[k + 1] == ' ' && AllDigits(body[..k]) && AllDigits(body[k + 2..])
      then Some(MinutesAndSeconds(ParseNat(body[..k]), ParseNat(body[k + 2..])))
      else None
  }

  function MinutesAndSeconds(m: nat, s: nat): nat {
    60 * m + s
  }

  lemma DigitsHaveNoM(d: string)
    requires AllDigits(d)
    ensures 'm' !in d
  {
    forall i | 0 <= i < |d| ensures d[i] != 'm' {
      assert IsDigit(d[i]);
    }
  }

  lemma ReadTimeOf(body: string)
    requires |body| > 0
    ensures ReadTime(body + "s") == ReadAmount(body)
  {
    var t := body + "s";
    assert t[..|t| - 1] == body;
  }

  lemma ReadSeconds(ss: string)
    requires |ss| > 0 && AllDigits(ss)
    ensures ReadTime(ss + "s") == Some(ParseNat(ss))
  {
    ReadTimeOf(ss);
    DigitsHaveNoM(ss);
  }

  lemma ReadAmountSplit(ms: string, ss: string)
    requires |ms| > 0 && AllDigits(ms) && |ss| > 0 && AllDigits(ss)
    ensures ReadAmount(ms + "m " + ss) == Some(MinutesAndSeconds(ParseNat(ms), ParseNat(ss)))
  {
    var body := ms + "m " + ss;
    assert body == ms + ['m'] + ([' '] + ss);
    DigitsHaveNoM(ms);
    Text.FirstIndexAfter(ms, 'm', [' '] + ss);
    var k := |ms|;
    assert body[k + 1] == ' ';
    assert body[..k] == ms;
    assert body[k + 2..] == ss;
  }

  lemma ReadMinutesSeconds(ms: string, ss: string)
    requires |ms| > 0 && AllDigits(ms) && |ss| > 0 && AllDigits(ss)
    ensures ReadTime(ms + "m " + ss + "s") == Some(MinutesAndSeconds(ParseNat(ms), ParseNat(ss)))
  {
    ReadTimeOf(ms + "m " + ss);
    ReadAmountSplit(ms, ss);
  }

  /** Printing a non-negative duration loses nothing. */
  lemma {:induction false} ReadFormatTime(n: nat)
    ensures ReadTime(FormatTime(n)) == Some(n)
  {
    var m, s := n / 60, n % 60;
    FormatTimeSplit(n);
    var ms, ss := NatToString(m), NatToString(s);
    if m > 0 {
      assert FormatTime(n) == ms + "m " + ss + "s";
      ReadMinutesSeconds(ms, ss);
      ParseNatToString(m);
      ParseNatToString(s);
      assert MinutesAndSeconds(m, s) == n;
    } else {
      assert FormatTime(n) == ss + "s";
      ReadSeconds(ss);
      ParseNatToString(s);
    }
  }

  /** Two different non-negative durations never print the same. */
  lemma FormatTimeInjective(a: nat, b: nat)
    requires FormatTime(a) == FormatTime(b)
    ensures a == b
  {
    ReadFormatTime(a);
    ReadFormatTime(b);
  }
}

=== FILE: wrappers.dfy ===
/** Small failure-carrying datatypes shared by the rest of the model. */
module Wrappers {

  /** `T | null` (or `T | undefined`) of the source. */
  datatype Option<+T> = None | Some(value: T)

  /** The outcome of an awaited call to the persistence backend: it either
      throws (`Fails`) or resolves with a value. */
  datatype Reply<+T> = Fails | Returns(value: T)
}
